=== FILE: README.md ===
# SentisDeformer in Dafny

A model of the run-time core of the Altaria cloth deformer
(`SentisDeformer`). A neural network predicts per-vertex cloth displacements
for a skinned character. The network's output is split into *patches*, each
covering a list of mesh vertex ids. Every frame the deformer works in three
steps:

1. It reads back one flat output per patch, three values per vertex.
2. It de-normalises those values from the encoder range [-1, 1] into the
   calibrated displacement range [min, max], and scatters them into a
   per-vertex delta buffer.
3. It blends the deltas onto the neutral mesh. The blend uses a clamped
   global weight and an optional per-vertex mask, which is meant to be the
   top byte of the vertex colour (the read as written takes the wrong word;
   see "## Findings").

Around this per-frame work sit four more pieces:

- a one-time flattening of the patch lists into dense offset/length tables;
- the packing of the per-vertex incident-triangle lists for the normal
  kernel;
- the compute-dispatch group count;
- a binary export of the patch lists.

Everything rests on a resource lifecycle that re-provisions the instance
when the inference backend changes.

The modules:

- `Layout` is the "arena plus prefix-sum offsets" layout that both dense
  tables use, defined once.
- `Vectors` holds `Vec3`, `saturate` and `lerp` over exact reals.
- `Remap` is the de-normalisation.
- `Dispatch` is the group count.
- `PatchTable` is the flattening.
- `Adjacency` is the triangle-list packing.
- `DeltaScatter` is the read-back and scatter.
- `Blend` is the CPU blend and the GPU blend parameters.
- `Frame` is one CPU frame.
- `PatchExport` is the binary export and a reference reader.
- `Lifecycle` is the resource state machine.

The model takes these things as parameters:

- the network's outputs, one sequence of reals per patch;
- the incident-triangle lists;
- the packed vertex colours, one per vertex, as the corrected read
  `Blend.VertexColours` takes them from the colour stream;
- the inspector settings.

No network, GPU, file or clock is modelled.

## Model

All source paths are under `Assets/TimeGhost/Code/com.unity.demoteam.altaria/Runtime/`.

| member | source | states |
|---|---|---|
| Dispatch.DispatchGroupsCount | Assets/TimeGhost/Code/com.unity.demoteam.altaria/Runtime/SentisDeformer.cs:130-134 | For a thread count that fits a signed int and a group width up to 2^31, the count is non-negative, its groups cover every thread, and one group fewer would not. The unsigned wrap and the signed cast are modelled explicitly. |
| Dispatch.DispatchGroupsCountLeast | Assets/TimeGhost/Code/com.unity.demoteam.altaria/Runtime/SentisDeformer.cs:130-134 | Any number of groups that covers the threads is at least the computed count, so the count is the least sufficient one. |
| Dispatch.DispatchGroupsCountWraps | Assets/TimeGhost/Code/com.unity.demoteam.altaria/Runtime/SentisDeformer.cs:133 | Outside the signed range the 32-bit arithmetic shows through: 0xFFFFFFFF threads at width 64 wrap to zero groups, and 2^31 threads at width 1 come back from the cast as -2^31. |
| Dispatch.AsInt32 | Assets/TimeGhost/Code/com.unity.demoteam.altaria/Runtime/SentisDeformer.cs:133 | The `(int)` cast yields a signed 32-bit value congruent to its operand modulo 2^32, i.e. the two's-complement reading: the identity below 2^31 and u - 2^32 above. |
| Remap.Denormalize | Assets/TimeGhost/Code/com.unity.demoteam.altaria/Runtime/SentisDeformer.cs:233-237 | `Normalize` sends the ends -1 and 1 of the encoder range to min and max. |
| Remap.DenormalizeAnchors | Assets/TimeGhost/Code/com.unity.demoteam.altaria/Runtime/SentisDeformer.cs:233-237 | Encoder value -1 maps to min, 1 maps to max, and 0 maps to the midpoint. |
| Remap.DenormalizeMonotone | Assets/TimeGhost/Code/com.unity.demoteam.altaria/Runtime/SentisDeformer.cs:233-237 | On a well-ordered range the de-normalisation preserves order. |
| Remap.DenormalizeInRange | Assets/TimeGhost/Code/com.unity.demoteam.altaria/Runtime/SentisDeformer.cs:233-237 | Values in [-1, 1] land in [min, max]. |
| Remap.DenormalizeRoundTrip | Assets/TimeGhost/Code/com.unity.demoteam.altaria/Runtime/SentisDeformer.cs:233-237 | On a non-degenerate range the map and its inverse undo each other in both directions, so no information is lost. |
| Remap.DefaultRangeOrdered | Assets/TimeGhost/Code/com.unity.demoteam.altaria/Runtime/SentisDeformer.cs:109-110 | The shipped calibration constants satisfy min < max. |
| Vectors.Saturate | Assets/TimeGhost/Code/com.unity.demoteam.altaria/Runtime/SentisDeformer.cs:267-268 | The clamp lands in [0, 1], is the identity on [0, 1], and sends values at or below 0 to 0 and values at or above 1 to 1. |
| Vectors.LerpBetween | Assets/TimeGhost/Code/com.unity.demoteam.altaria/Runtime/SentisDeformer.cs:277 | For t in [0, 1] the interpolant lies between its two ends, whichever end is larger. |
| Blend.ColourIndexAsWrittenOutOfRange | Assets/TimeGhost/Code/com.unity.demoteam.altaria/Runtime/SentisDeformer.cs:259-275 | As written, the colour read for the last vertex of any mesh with two or more vertices indexes past the end of the 32-bit word view of the colour stream, because a byte position is used as a word index. |
| Blend.ColourIndexInVertex | Assets/TimeGhost/Code/com.unity.demoteam.altaria/Runtime/SentisDeformer.cs:259-275 | The corrected read (byte position divided by four) for every vertex lies inside that vertex's own bytes, and so inside the word stream. |
| Blend.VertexColours | Assets/TimeGhost/Code/com.unity.demoteam.altaria/Runtime/SentisDeformer.cs:259-275 | The corrected read gives one colour per vertex, each a word of the stream, so all of them are 32-bit when the stream's words are. |
| Blend.StreamColoursFeedBlend | Assets/TimeGhost/Code/com.unity.demoteam.altaria/Runtime/SentisDeformer.cs:242-285 | The colours of the corrected read make the blend's inputs valid whatever the settings, given the positions and the delta buffer. |
| Blend.ColourReadExample | Assets/TimeGhost/Code/com.unity.demoteam.altaria/Runtime/SentisDeformer.cs:259-275 | Two 4-byte vertices give a two-word stream; as written vertex 1 reads word 4, while the corrected read takes word 1. |
| Blend.MaskByte | Assets/TimeGhost/Code/com.unity.demoteam.altaria/Runtime/SentisDeformer.cs:276 | `color >> 24` on an unsigned 32-bit colour is a byte b with b * 2^24 <= colour < (b + 1) * 2^24. |
| Blend.MaskWeight | Assets/TimeGhost/Code/com.unity.demoteam.altaria/Runtime/SentisDeformer.cs:276 | The mask weight is the top byte over 255 and lies in [0, 1], so the clamp never changes it. |
| Blend.MaskFactor | Assets/TimeGhost/Code/com.unity.demoteam.altaria/Runtime/SentisDeformer.cs:272-278 | The factor lies in [0, 1]. It is 1 when the influence is not positive, and it is exactly the mask weight when the influence is at least 1. |
| Blend.VertexWeight | Assets/TimeGhost/Code/com.unity.demoteam.altaria/Runtime/SentisDeformer.cs:267-280 | The weight applied to a vertex's delta lies between 0 and the clamped global weight, so a vertex moves at most by its full delta; with the mask off it is exactly the clamped global weight. |
| Blend.ApplyDeformCpu | Assets/TimeGhost/Code/com.unity.demoteam.altaria/Runtime/SentisDeformer.cs:242-286 | One position per vertex. With the cloth off, no delta buffer, or a weight at or below zero, the result is the neutral mesh. Otherwise every vertex lies on the segment from its neutral position towards neutral plus its own delta, at most the clamped global weight of the way along; with the mask off it moves exactly that fraction. |
| Blend.MaskedOutVertexIsNeutral | Assets/TimeGhost/Code/com.unity.demoteam.altaria/Runtime/SentisDeformer.cs:273-280 | With full mask influence, a vertex whose mask byte is zero stays neutral. |
| Blend.ZeroDeltaIsNeutral | Assets/TimeGhost/Code/com.unity.demoteam.altaria/Runtime/SentisDeformer.cs:280 | A vertex with a zero delta stays neutral. |
| Blend.FullWeightAppliesDelta | Assets/TimeGhost/Code/com.unity.demoteam.altaria/Runtime/SentisDeformer.cs:267-280 | At full weight with the mask off, the whole delta is added. |
| Blend.GpuBlendParams | Assets/TimeGhost/Code/com.unity.demoteam.altaria/Runtime/SentisDeformer.cs:537-538 | The kernel's weight and mask influence both lie in [0, 1], and both are zero when the cloth is off. |
| Blend.GpuParamsMatchCpuWeights | Assets/TimeGhost/Code/com.unity.demoteam.altaria/Runtime/SentisDeformer.cs:537-538 | Fed through the CPU formula, the GPU parameters give the same per-vertex weight as the CPU path. With the cloth off they give weight zero. |
| DeltaScatter.FirstMismatch | Assets/TimeGhost/Code/com.unity.demoteam.altaria/Runtime/SentisDeformer.cs:328-338 | The scan stops at the first output that does not match its patch, at the end of the outputs, or at the end of the patch list, whichever comes first. Every output before the stop matches its patch (length divided by three equals the id count); a stop inside both lists is a mismatch. |
| DeltaScatter.ScanInBoundsIff | Assets/TimeGhost/Code/com.unity.demoteam.altaria/Runtime/SentisDeformer.cs:328-338 | The scan stays inside the patch list exactly when there are no more outputs than patches, or some output within the patch list mismatches and the loop returns first. |
| DeltaScatter.ScanStopExamples | Assets/TimeGhost/Code/com.unity.demoteam.altaria/Runtime/SentisDeformer.cs:328-352 | A mismatching second patch stops the scan, so its out-of-range id is never read and a one-entry delta buffer suffices; one patch with two matching outputs runs past the patch list. |
| DeltaScatter.ScatterDeltas | Assets/TimeGhost/Code/com.unity.demoteam.altaria/Runtime/SentisDeformer.cs:318-355 | The delta buffer has one entry per vertex. Each entry is the value of the last store to that vertex among the patches before the first mismatch, or zero if there was none. Ids of patches from the first mismatch on are not constrained, since they are never read. |
| DeltaScatter.WrittenIffCovered | Assets/TimeGhost/Code/com.unity.demoteam.altaria/Runtime/SentisDeformer.cs:318-355 | A vertex receives a store exactly when one of the scattered patches lists it. Both directions are proved. |
| DeltaScatter.LastOccurrenceWins | Assets/TimeGhost/Code/com.unity.demoteam.altaria/Runtime/SentisDeformer.cs:341-353 | The delta of a vertex is the triple of its last occurrence, in patch order and then in order within the patch. |
| DeltaScatter.ScatterExample | Assets/TimeGhost/Code/com.unity.demoteam.altaria/Runtime/SentisDeformer.cs:318-355 | One patch over vertices 0, 2 and 4, with output (-1 x3, 1 x3, 0 x3) and range [-0.5, 0.5], gives deltas -0.5, 0.5 and 0 there and nothing at vertices 1 and 3. |
| Frame.CpuFrame | Assets/TimeGhost/Code/com.unity.demoteam.altaria/Runtime/SentisDeformer.cs:288-301 | When read-back bails out early, the previous frame's delta buffer is kept. Otherwise the delta of every vertex is the value of its last store among the scattered patches, or zero, and every vertex not covered by a scattered patch ends at its neutral position. Either way the blend's inputs are valid and the resolved mesh is the blend of the resulting delta buffer. Colours are required only when a delta buffer is blended with the mask in use. With the cloth off, the whole mesh is neutral. |
| PatchTable.FlattenPatches | Assets/TimeGhost/Code/com.unity.demoteam.altaria/Runtime/SentisDeformer.cs:691-708 | It fails (the write past the id table throws, with Unity's collection safety checks on) exactly when the patches hold more ids than the declared vertex count. Otherwise the id table is the patches concatenated in order, zero-padded to the vertex count, and each patch's offset and length are its prefix sum and size. |
| PatchTable.FlattenedOffsetsChain | Assets/TimeGhost/Code/com.unity.demoteam.altaria/Runtime/SentisDeformer.cs:695-708 | For every patch, empty ones included, offsets start at 0 and each offset is the previous offset plus the previous length. |
| PatchTable.FlattenedTablesIndex | Assets/TimeGhost/Code/com.unity.demoteam.altaria/Runtime/SentisDeformer.cs:701-705 | The j-th id of patch i sits at offset i plus j in the id table. |
| Layout.SliceRecovers | Assets/TimeGhost/Code/com.unity.demoteam.altaria/Runtime/SentisDeformer.cs:695-708 | Slicing the flat table at a list's offset and length gives back exactly that list. |
| Layout.SlicesOrdered | Assets/TimeGhost/Code/com.unity.demoteam.altaria/Runtime/SentisDeformer.cs:695-708 | An earlier list's slice ends no later than any later list's slice begins. |
| Adjacency.BuildAdjacencyBuffers | Assets/TimeGhost/Code/com.unity.demoteam.altaria/Runtime/SentisDeformer.cs:593-607 | The interleaved buffer has two entries per vertex. The flat buffer is every incident-triangle list in vertex order. Each vertex's offset is its prefix sum and its count is its list length. |
| Adjacency.AdjacencyBuffersWellFormed | Assets/TimeGhost/Code/com.unity.demoteam.altaria/Runtime/SentisDeformer.cs:593-607 | The first offset is 0, each offset follows the previous slice, and the last slice ends at the end of the flat buffer. Reading a vertex's slice gives exactly its incident triangles. |
| Adjacency.AdjacencySlicesDisjoint | Assets/TimeGhost/Code/com.unity.demoteam.altaria/Runtime/SentisDeformer.cs:603-606 | Slices of distinct vertices never overlap. |
| PatchExport.Int32RoundTrip | Assets/TimeGhost/Code/com.unity.demoteam.altaria/Runtime/SentisDeformer.cs:813-815 | Every signed 32-bit integer survives being written as four little-endian two's-complement bytes and read back. |
| PatchExport.Int32BytesRoundTrip | Assets/TimeGhost/Code/com.unity.demoteam.altaria/Runtime/SentisDeformer.cs:813-815 | Every four bytes are the encoding of the integer read from them. |
| PatchExport.ExportPatches | Assets/TimeGhost/Code/com.unity.demoteam.altaria/Runtime/SentisDeformer.cs:811-816 | The file has four bytes per patch for its length plus four bytes per id. |
| PatchExport.ExportImportRoundTrip | Assets/TimeGhost/Code/com.unity.demoteam.altaria/Runtime/SentisDeformer.cs:811-816 | Reading the exported file with the reference reader gives back the patch lists exactly. |
| PatchExport.ImportExportRoundTrip | Assets/TimeGhost/Code/com.unity.demoteam.altaria/Runtime/SentisDeformer.cs:811-816 | Every byte string the reader accepts is exactly the export of what it reads. Each table therefore has one encoding. |
| Lifecycle.FreeResourcesIdempotent | Assets/TimeGhost/Code/com.unity.demoteam.altaria/Runtime/SentisDeformer.cs:719-794 | Teardown is idempotent: a second teardown releases nothing more and changes only the event log. When teardown clears the flag, the flag agrees with the absent tables afterwards. |
| Lifecycle.InitResources | Assets/TimeGhost/Code/com.unity.demoteam.altaria/Runtime/SentisDeformer.cs:634-714 | A worker is always created for the configured backend. The call throws (with Unity's collection safety checks on) exactly when the patch lists exceed the declared vertex count. As written, the flag becomes set exactly when it was set already or the tables were built. When the flag is cleared wherever the patch lists are dropped, missing patch lists also clear it. Missing patch lists always leave the tables dropped. |
| Lifecycle.OnEnable | Assets/TimeGhost/Code/com.unity.demoteam.altaria/Runtime/SentisDeformer.cs:158-173 | It initialises a worker for the configured backend and, on completion, records that backend as the latest. |
| Lifecycle.LateUpdate | Assets/TimeGhost/Code/com.unity.demoteam.altaria/Runtime/SentisDeformer.cs:188-223 | A frame keeps the configured backend. Without a backend change it changes no state. Only a re-initialisation is modelled as throwing (failures inside the CPU and GPU paths are outside this member); any frame not aborted by it has recorded the configured backend. The CPU or GPU path runs only with the flag set, the CPU path only for the CPU backend, and the GPU path only for the GPU backend with a GPU worker. |
| Lifecycle.BackendSwitchReprovisions | Assets/TimeGhost/Code/com.unity.demoteam.altaria/Runtime/SentisDeformer.cs:188-195 | A backend change frees, then creates a worker for the new backend, then records it. The frame can never reach the wrong-worker error. |
| Lifecycle.SteadyFrameKeepsResources | Assets/TimeGhost/Code/com.unity.demoteam.altaria/Runtime/SentisDeformer.cs:188-223 | Without a backend change the state is untouched. The frame is skipped, runs the CPU path or runs the GPU path according to the flag and the backend. |
| Lifecycle.FlagNeverCleared | Assets/TimeGhost/Code/com.unity.demoteam.altaria/Runtime/SentisDeformer.cs:719-728 | As written, no frame ever clears the initialised flag. |
| Lifecycle.StaleFlagRunsWithoutTables | Assets/TimeGhost/Code/com.unity.demoteam.altaria/Runtime/SentisDeformer.cs:188-206 | As written, a switch to the CPU backend with no patch asset assigned runs the CPU path with the patch lists freed. |
| Lifecycle.ClearedFlagKeepsFramesHonest | Assets/TimeGhost/Code/com.unity.demoteam.altaria/Runtime/SentisDeformer.cs:188-223 | With the flag cleared wherever the patch lists are dropped, every `LateUpdate` frame keeps "flag set implies patch lists live", and every frame that runs a backend path has its tables. |
| Lifecycle.OnEnableStaleFlag | Assets/TimeGhost/Code/com.unity.demoteam.altaria/Runtime/SentisDeformer.cs:158-173 | As written, enabling an initialised instance whose asset has no patch lists re-initialises without teardown, drops the patch lists and keeps the flag, so the next frame runs the CPU path without tables. |
| Lifecycle.OnEnableKeepsFlagHonest | Assets/TimeGhost/Code/com.unity.demoteam.altaria/Runtime/SentisDeformer.cs:158-173 | With the flag cleared wherever the patch lists are dropped, initialisation and enabling keep the flag honest for every asset, and the frame after enabling runs a backend path only with its tables. |

## Left out

- Network inference is outside the model. This covers loading the model, filling the input tensors from joint rotations, scheduling the worker and downloading outputs. The per-patch outputs are inputs.
- Sorting output names by name is not modelled. The outputs arrive already in patch order.
- The GPU execution path is out of scope: `ExecuteSentisGPU`, the deformation and normal-recalculation kernels, `AfterGpuSkinningCallback`, and the GPU buffer creation and disposal. Only the blend parameters the deformation kernel receives and the adjacency buffer contents are modelled.
- Mesh instance handling is out of scope: `EnsureMeshInstance`, `RemoveMeshInstance`, `UpdateMeshBuffers` and writing vertices back to the mesh. These are engine calls; the neutral positions are an input.
- The incident-triangle lists (`MeshAdjacency`) are built in code that is not part of this model. They are an input.
- Blend.ApplyDeformCpu: takes one packed colour per vertex, the read the code evidently intends: word `(i * stride + offset) / 4` of the colour stream (`Blend.VertexColours`). The code reads word `i * stride + offset`, mixing byte and word units. With the mask in use on a mesh of two or more vertices, that read runs past the stream and throws with Unity's collection safety checks on (see "## Findings"); the as-written read is not what the blend consumes.
- Blend.VertexColours: assumes the colour attribute is one 4-byte word (`UNorm8x4`) at a word-aligned offset. A wider colour format is not modelled.
- Floating point is out of scope. Positions, outputs and weights are exact reals, so single-precision rounding is not modelled.
- The patch offsets and ids are C# `int`s. Their overflow in the flattening loop is not modelled, because counts are unbounded naturals.
- `OnDisable`, `ReloadModel` and the editor's instance registry are out of scope. `OnDisable` only frees resources in a case that depends on the mesh's instance id. `ReloadModel` re-runs initialisation without teardown.
- Lifecycle: the state tracks only the worker, the patch tables and the initialised flag. GPU buffers and leaked native arrays after a throwing initialisation are not tracked.
- DeltaScatter.ScatterDeltas: requires that the scan does not run past the patch list. When every patch matches and outputs remain, the source indexes past the patch list and throws; that throw is not modelled. A mismatch within the patch list returns normally and is admitted.
- DeltaScatter.ScatterDeltas: requires every id of a scattered patch (one before the first mismatch) to index the delta buffer. An out-of-range id there throws in the source; that throw is not modelled. Ids of later patches are never read and are unconstrained.
- Frame.CpuFrame: when the read-back runs, carries the same two requirements as DeltaScatter.ScatterDeltas, for the same reasons.
- Lifecycle.LateUpdate: only a re-initialisation is modelled as throwing (`Aborted`). Failures inside the CPU and GPU paths, such as the null patch list dereference of the finding below, are outside this member: its action names the path the frame takes, not whether that path completes.
- PatchTable.FlattenPatches: the write past the id table is modelled as a throw, which is what Unity's collection safety checks (on in the Editor) do. In a player build without them the write is unchecked and corrupts memory; that is not modelled.
- Blend.ApplyDeformCpu: requires a delta for every vertex whenever a delta buffer exists and the cloth is on. The source indexes the delta buffer up to the vertex count and throws when it is shorter, which can happen when the read-back bailed out early and left a buffer sized for an earlier mesh; that throw is not modelled.
- Frame.CpuFrame: requires, when the read-back bails out, that the previous delta buffer covers the vertex count, for the same reason; the throw on a shorter buffer is not modelled.
- Blend.ApplyDeformCpu: requires a colour for every vertex when the mask influence is positive. Without a colour stream the source indexes an unallocated buffer and faults; a "no colour, no mask" fallback is not what the code does, so the model does not assume one.
- Dispatch.DispatchGroupsCount: its covering guarantee is stated only for counts below 2^31 and widths up to 2^31, which are the values the source passes. Beyond that, only the two wrap examples are proved, and the cast's two's-complement value is stated on its own.
- The other files of the repository (netcode and ECS demo code) are not part of this model.

## Findings

| source | as written | input that shows it | evidently intended | confidence | as-written member | corrected member |
|---|---|---|---|---|---|---|
| Assets/TimeGhost/Code/com.unity.demoteam.altaria/Runtime/SentisDeformer.cs:719-728 | Teardown disposes the worker and the patch lists but never clears `_resourcesInitialized`, which is only ever set to true. | Take an initialised instance and switch its backend from GPU to CPU with the patch asset unassigned. Re-initialisation returns early, the stale flag passes the check, and the CPU read-back dereferences the patch list reference that teardown set to null (line 793), throwing a NullReferenceException at line 333. | Teardown clears the flag, so the frame is skipped with "resources not initialized". | medium, not executed | Lifecycle.StaleFlagRunsWithoutTables | Lifecycle.ClearedFlagKeepsFramesHonest |
| Assets/TimeGhost/Code/com.unity.demoteam.altaria/Runtime/SentisDeformer.cs:681-685 | When the asset has no patch lists, initialisation returns after overwriting the patch list reference with null, without clearing `_resourcesInitialized`. `OnEnable` (line 167) initialises without teardown. | Enable an initialised CPU instance whose asset now holds no patch lists. The flag stays set with the patch lists null, and the next frame runs the CPU read-back, which dereferences null at line 333. | The flag is cleared wherever the patch lists are dropped, so the frame is skipped. | medium, not executed | Lifecycle.OnEnableStaleFlag | Lifecycle.OnEnableKeepsFlagHonest |
| Assets/TimeGhost/Code/com.unity.demoteam.altaria/Runtime/SentisDeformer.cs:275 | The colour is read as `colorBuffer[i * stride + offset]`, where `colorBuffer` is the stream's 32-bit word view (line 261) but `stride` and `offset` are byte counts (lines 262-263). | A mesh of two vertices whose 4-byte vertex is only its colour, with the mask in use: the stream has 2 words and vertex 1 reads word 4, past the end. | Read word `(i * stride + offset) / 4`, the one holding vertex i's colour. | high, not executed | Blend.ColourIndexAsWrittenOutOfRange | Blend.ColourIndexInVertex |

=== FILE: adjacency.dfy ===
/** Adjacency upload (`CreateCommonGPUResources`). For every vertex the mesh
    adjacency lists the triangles incident on it. The deformer packs those
    lists into one flat triangle-index buffer and an interleaved per-vertex
    (offset, count) buffer, `[offset0, count0, offset1, count1, ...]`, which
    the normal-recalculation kernel reads.

    Building the incident-triangle lists themselves (`MeshAdjacency`) is not
    part of this model: they are an input.
 */
module Adjacency {
  import opened Layout

  /** Offset of vertex `v`'s slice, read from the interleaved buffer. */
  function OffsetOf(offsetCount: seq<int>, v: nat): int
    requires 2 * v + 1 < |offsetCount|
  {
    offsetCount[2 * v]
  }

  /** Number of triangles in vertex `v`'s slice. */
  function CountOf(offsetCount: seq<int>, v: nat): int
    requires 2 * v + 1 < |offsetCount|
  {
    offsetCount[2 * v + 1]
  }

  /** The upload loop. Every vertex gets a contiguous slice, in vertex order,
      holding its incident triangles in the adjacency's own order. */
  method BuildAdjacencyBuffers(vertexTriangles: seq<seq<int>>)
    returns (offsetCount: seq<int>, flat: seq<int>)
    ensures |offsetCount| == 2 * |vertexTriangles|
    ensures flat == Concat(vertexTriangles)
    ensures forall v :: 0 <= v < |vertexTriangles| ==>
              OffsetOf(offsetCount, v) == StartOf(vertexTriangles, v) &&
              CountOf(offsetCount, v) == |vertexTriangles[v]|
  {
    offsetCount := seq(2 * |vertexTriangles|, _ => 0);
    flat := [];
    var current := 0;
    var i := 0;
    while i != |vertexTriangles|
      invariant 0 <= i <= |vertexTriangles|
      invariant |offsetCount| == 2 * |vertexTriangles|
      invariant current == TotalLength(vertexTriangles[..i])
      invariant flat == Concat(vertexTriangles[..i])
      invariant forall v :: 0 <= v < i ==>
                  OffsetOf(offsetCount, v) == StartOf(vertexTriangles, v) &&
                  CountOf(offsetCount, v) == |vertexTriangles[v]|
    {
      var triangleOffset := 0;
      while triangleOffset < |vertexTriangles[i]|
        invariant 0 <= triangleOffset <= |vertexTriangles[i]|
        invariant |flat| == current + triangleOffset
        invariant flat == Concat(vertexTriangles[..i]) + vertexTriangles[i][..triangleOffset]
      {
        flat := flat + [vertexTriangles[i][triangleOffset]];
        assert vertexTriangles[i][..triangleOffset + 1]
            == vertexTriangles[i][..triangleOffset] + [vertexTriangles[i][triangleOffset]];
        triangleOffset := triangleOffset + 1;
      }
      assert vertexTriangles[i][..triangleOffset] == vertexTriangles[i];
      offsetCount := offsetCount[2 * i := current][2 * i + 1 := triangleOffset];
      PrefixStep(vertexTriangles, i);
      current := current + triangleOffset;
      i := i + 1;
    }
    assert vertexTriangles[..i] == vertexTriangles;
  }

  /** The invariants of the packed table that the normal kernel depends on:
      offsets start at zero, each offset follows the previous slice, the
      last slice ends exactly at the end of the flat buffer, and reading a
      vertex's slice yields exactly its incident triangles. */
  lemma AdjacencyBuffersWellFormed(vertexTriangles: seq<seq<int>>, offsetCount: seq<int>, flat: seq<int>, v: nat)
    requires |offsetCount| == 2 * |vertexTriangles|
    requires flat == Concat(vertexTriangles)
    requires forall u :: 0 <= u < |vertexTriangles| ==>
               OffsetOf(offsetCount, u) == StartOf(vertexTriangles, u) &&
               CountOf(offsetCount, u) == |vertexTriangles[u]|
    requires v < |vertexTriangles|
    ensures v == 0 ==> OffsetOf(offsetCount, v) == 0
    ensures v + 1 < |vertexTriangles| ==>
              OffsetOf(offsetCount, v + 1) == OffsetOf(offsetCount, v) + CountOf(offsetCount, v)
    ensures v + 1 == |vertexTriangles| ==> OffsetOf(offsetCount, v) + CountOf(offsetCount, v) == |flat|
    ensures && 0 <= OffsetOf(offsetCount, v) <= OffsetOf(offsetCount, v) + CountOf(offsetCount, v) <= |flat|
            && flat[OffsetOf(offsetCount, v)..OffsetOf(offsetCount, v) + CountOf(offsetCount, v)] == vertexTriangles[v]
  {
    PrefixStep(vertexTriangles, v);
    SliceRecovers(vertexTriangles, v);
    if v + 1 == |vertexTriangles| {
      assert vertexTriangles[..v + 1] == vertexTriangles;
    }
  }

  /** Slices of distinct vertices never overlap: an earlier vertex's slice
      ends before a later vertex's slice begins. */
  lemma AdjacencySlicesDisjoint(vertexTriangles: seq<seq<int>>, offsetCount: seq<int>, u: nat, v: nat)
    requires |offsetCount| == 2 * |vertexTriangles|
    requires forall w :: 0 <= w < |vertexTriangles| ==>
               OffsetOf(offsetCount, w) == StartOf(vertexTriangles, w) &&
               CountOf(offsetCount, w) == |vertexTriangles[w]|
    requires u < v < |vertexTriangles|
    ensures OffsetOf(offsetCount, u) + CountOf(offsetCount, u) <= OffsetOf(offsetCount, v)
  {
    SlicesOrdered(vertexTriangles, u, v);
  }
}

=== FILE: arith.dfy ===
/** Small facts of integer arithmetic the solver does not find unaided
    (products and Euclidean division with a symbolic operand). */
module Arith {

  const Two31: int := 0x8000_0000
  const Two32: int := 0x1_0000_0000

  /** Fits an unsigned 32-bit integer (`uint`). */
  predicate IsUInt32(v: int) { 0 <= v < Two32 }

  /** Fits a signed 32-bit integer (`int`). */
  predicate IsInt32(v: int) { -Two31 <= v < Two31 }

  lemma MulLe(a: int, b: int, c: int)
    requires a <= b && c >= 0
    ensures a * c <= b * c
  {
    assert (b - a) * c >= 0;
    assert (b - a) * c == b * c - a * c;
  }

  /** Quotient and remainder are unique. */
  lemma DivUnique(u: int, d: int, q: int, r: int)
    requires 0 < d && u == q * d + r && 0 <= r < d
    ensures u / d == q
  {
    var q' := u / d;
    var r' := u % d;
    assert u == q' * d + r';
    if q' < q {
      assert (q - q') * d == r' - r;
      MulLe(1, q - q', d);
    } else if q' > q {
      assert (q' - q) * d == r - r';
      MulLe(1, q' - q, d);
    }
  }

  /** Dividing twice is dividing by the product. */
  lemma DivDiv(u: int, a: int, b: int)
    requires 0 <= u && 0 < a && 0 < b
    ensures u / a / b == u / (a * b)
  {
    var q := u / a;
    var r := u % a;
    var q2 := q / b;
    var r2 := q % b;
    assert u == q * a + r;
    assert q == q2 * b + r2;
    assert q * a == q2 * (a * b) + r2 * a;
    assert 0 <= r2 * a + r < a * b by {
      MulLe(r2, b - 1, a);
      assert (b - 1) * a == a * b - a;
    }
    DivUnique(u, a * b, q2, r2 * a + r);
  }
}

=== FILE: blend.dfy ===
/** CPU blending (`ApplyDeformCPU`) and the blend parameters handed to the GPU
    kernel. The resolved position of a vertex is its neutral position plus its
    delta scaled by the clamped global weight and by an optional per-vertex
    mask factor. The mask is meant to be the top byte of the vertex's packed
    32-bit colour, read as a value in [0, 1]; the mask influence blends the
    factor from 1 (mask ignored) towards that value. The loop indexes the
    colour stream's 32-bit words with a byte position, so it reads the wrong
    word; `ColourIndexAsWritten` records that read and `VertexColours` the
    corrected one that supplies the per-vertex colours here.
 */
module Blend {
  import opened Vectors
  import opened Options
  import opened Arith

  /** The user-facing controls of the deformer. */
  datatype BlendSettings = BlendSettings(
    clothEnabled: bool,       // `altariaClothEnabled`
    weight: real,             // `deformationWeight`
    maskInfluence: real)      // `deformationWeightMaskInfluence`

  /** The colour stream as `GetVertexData<uint>` exposes it: `vertexCount`
      vertices of `stride` bytes, seen as 32-bit words. */
  function ColourWordCount(vertexCount: nat, stride: nat): nat
  {
    vertexCount * stride / 4
  }

  /** A vertex layout (stride and attribute offset in bytes) whose colour
      attribute is one aligned 32-bit word inside each vertex. */
  predicate ColourLayout(stride: nat, offset: nat)
  {
    stride % 4 == 0 && offset % 4 == 0 && offset + 4 <= stride
  }

  /** The word the blend loop reads for vertex `i`: the byte position of its
      colour used directly as a word index. */
  function ColourIndexAsWritten(i: nat, stride: nat, offset: nat): nat
  {
    i * stride + offset
  }

  /** The word that holds vertex `i`'s colour: its byte position divided by
      the word size. */
  function ColourIndex(i: nat, stride: nat, offset: nat): nat
  {
    (i * stride + offset) / 4
  }

  /** As written, the read for the last vertex of any mesh with two or more
      vertices lies past the end of the word stream. */
  lemma ColourIndexAsWrittenOutOfRange(vertexCount: nat, stride: nat, offset: nat)
    requires ColourLayout(stride, offset) && vertexCount >= 2
    ensures ColourIndexAsWritten(vertexCount - 1, stride, offset) >= ColourWordCount(vertexCount, stride)
  {
    var w := stride / 4;
    assert stride == 4 * w;
    assert vertexCount * stride == (vertexCount * w) * 4;
    assert ColourWordCount(vertexCount, stride) == vertexCount * w;
    MulLe(vertexCount, 4 * (vertexCount - 1), w);
    assert (4 * (vertexCount - 1)) * w == (vertexCount - 1) * stride;
  }

  /** With stride and offset whole words, the byte position of vertex `i`'s
      colour divided by the word size is its word position. */
  lemma WordOfAligned(i: nat, w: nat, o: nat, stride: nat, offset: nat)
    requires stride == 4 * w && offset == 4 * o
    ensures (i * stride + offset) / 4 == i * w + o
  {
    assert i * stride + offset == (i * w + o) * 4 + 0;
    DivUnique(i * stride + offset, 4, i * w + o, 0);
  }

  /** The corrected read for vertex `i` lies within that vertex's own bytes,
      and so within the word stream. */
  lemma ColourIndexInVertex(vertexCount: nat, stride: nat, offset: nat, i: nat)
    requires ColourLayout(stride, offset) && i < vertexCount
    ensures i * (stride / 4) <= ColourIndex(i, stride, offset) < (i + 1) * (stride / 4)
    ensures (i + 1) * (stride / 4) <= ColourWordCount(vertexCount, stride)
  {
    var w, o := stride / 4, offset / 4;
    WordOfAligned(i, w, o, stride, offset);
    assert (i + 1) * w == i * w + w;
    MulLe(i + 1, vertexCount, w);
    assert vertexCount * stride == (vertexCount * w) * 4;
  }

  /** Vertex `i`'s packed colour, read at the corrected word index. */
  function StreamColour(stream: seq<int>, vertexCount: nat, stride: nat, offset: nat, i: nat): (c: int)
    requires ColourLayout(stride, offset) && |stream| == ColourWordCount(vertexCount, stride)
    requires i < vertexCount
    ensures c in stream
  {
    ColourIndexInVertex(vertexCount, stride, offset, i);
    stream[ColourIndex(i, stride, offset)]
  }

  /** One packed colour per vertex, each a word of the stream; words are
      32-bit, so every colour is. */
  function VertexColours(stream: seq<int>, vertexCount: nat, stride: nat, offset: nat): (cs: seq<int>)
    requires ColourLayout(stride, offset) && |stream| == ColourWordCount(vertexCount, stride)
    ensures |cs| == vertexCount
    ensures forall i :: 0 <= i < vertexCount ==> cs[i] in stream
    ensures (forall k :: 0 <= k < |stream| ==> IsUInt32(stream[k])) ==>
              forall i :: 0 <= i < vertexCount ==> IsUInt32(cs[i])
  {
    seq(vertexCount, i requires 0 <= i < vertexCount => StreamColour(stream, vertexCount, stride, offset, i))
  }

  /** The corrected read supplies the blend with valid colours: given the
      other blend inputs, a stream of 32-bit words makes them valid whatever
      the settings. */
  lemma StreamColoursFeedBlend(neutral: seq<Vec3>, vertexCount: nat, s: BlendSettings,
                               delta: Option<seq<Vec3>>, stream: seq<int>, stride: nat, offset: nat)
    requires vertexCount <= |neutral|
    requires s.clothEnabled && delta.Some? ==> vertexCount <= |delta.value|
    requires ColourLayout(stride, offset) && |stream| == ColourWordCount(vertexCount, stride)
    requires forall k :: 0 <= k < |stream| ==> IsUInt32(stream[k])
    ensures ApplyInputsValid(neutral, vertexCount, s, delta, VertexColours(stream, vertexCount, stride, offset))
  {
  }

  /** Worked example: a mesh of two vertices whose 4-byte vertex is only its
      colour. The stream has two words; as written, vertex 1 reads word 4. */
  lemma ColourReadExample()
    ensures ColourWordCount(2, 4) == 2
    ensures ColourIndexAsWritten(1, 4, 0) == 4
    ensures ColourIndex(1, 4, 0) == 1
  {
  }

  /** `color >> 24` on an unsigned 32-bit colour. */
  function MaskByte(colour: int): (b: int)
    requires IsUInt32(colour)
    ensures 0 <= b <= 255
    ensures b * 0x100_0000 <= colour < (b + 1) * 0x100_0000
  {
    colour / 0x100_0000
  }

  /** `saturate((color >> 24) / 255)`. The byte already lies in [0, 255], so
      the clamp never changes it. */
  function MaskWeight(colour: int): (m: real)
    requires IsUInt32(colour)
    ensures 0.0 <= m <= 1.0
    ensures m == MaskByte(colour) as real / 255.0
  {
    Saturate(MaskByte(colour) as real / 255.0)
  }

  /** The per-vertex mask factor. With no positive influence the colour is
      never read and the factor is one. */
  function MaskFactor(maskInfluence: real, colour: int): (f: real)
    requires maskInfluence > 0.0 ==> IsUInt32(colour)
    ensures 0.0 <= f <= 1.0
    ensures maskInfluence <= 0.0 ==> f == 1.0
    ensures maskInfluence >= 1.0 ==> f == MaskWeight(colour)
  {
    if maskInfluence > 0.0 then
      var m := MaskWeight(colour);
      LerpBetween(1.0, m, Saturate(maskInfluence));
      Lerp(1.0, m, Saturate(maskInfluence))
    else 1.0
  }

  /** The scalar that multiplies a vertex's delta: the clamped global weight
      times the mask factor. It never exceeds the clamped global weight, so a
      vertex moves at most by its full delta, and with the mask off it is
      exactly that weight. */
  function VertexWeight(s: BlendSettings, colour: int): (w: real)
    requires s.maskInfluence > 0.0 ==> IsUInt32(colour)
    ensures 0.0 <= w <= Saturate(s.weight)
    ensures s.maskInfluence <= 0.0 ==> w == Saturate(s.weight)
  {
    var global := Saturate(s.weight);
    var mask := MaskFactor(s.maskInfluence, colour);
    ProductBelow(global, mask, global * mask);
    global * mask
  }

  lemma ProductBelow(g: real, m: real, v: real)
    requires 0.0 <= g <= 1.0 && 0.0 <= m <= 1.0 && v == g * m
    ensures 0.0 <= v <= g
  {
    UnitMulLe(m, g);
  }

  /** The colour the loop reads for vertex `i`: only touched with a positive
      mask influence. */
  function ColourAt(s: BlendSettings, colours: seq<int>, i: nat): int
  {
    if s.maskInfluence > 0.0 && i < |colours| then colours[i] else 0
  }

  /** What the source needs to avoid faulting: the neutral snapshot covers the
      vertex count, the delta buffer covers it, and when the mask is in use
      every vertex has a packed colour. */
  predicate ApplyInputsValid(neutral: seq<Vec3>, vertexCount: nat, s: BlendSettings,
                             delta: Option<seq<Vec3>>, colours: seq<int>)
  {
    && vertexCount <= |neutral|
    && (s.clothEnabled && delta.Some? ==> vertexCount <= |delta.value|)
    && (s.clothEnabled && delta.Some? && s.maskInfluence > 0.0 ==>
          vertexCount <= |colours| && forall i :: 0 <= i < vertexCount ==> IsUInt32(colours[i]))
  }

  /** `p` is `origin` moved along `d` by a fraction between 0 and `limit`. */
  ghost predicate OnSegment(p: Vec3, origin: Vec3, d: Vec3, limit: real)
  {
    exists w: real :: 0.0 <= w <= limit && p == Add(origin, Scale(d, w))
  }

  /** `ApplyDeformCPU`: copy the neutral positions, then, if the cloth
      deformation is on and a delta buffer exists, add each vertex's weighted
      delta. Every vertex therefore lies on the segment from its neutral
      position towards neutral plus its own delta, at most the clamped global
      weight of the way along; a weight at or below zero leaves the mesh
      neutral, and with the mask off every vertex moves by exactly the
      clamped weight. */
  function ApplyDeformCpu(neutral: seq<Vec3>, vertexCount: nat, s: BlendSettings,
                          delta: Option<seq<Vec3>>, colours: seq<int>): (r: seq<Vec3>)
    requires ApplyInputsValid(neutral, vertexCount, s, delta, colours)
    ensures |r| == vertexCount
    ensures !s.clothEnabled || delta.None? || s.weight <= 0.0 ==> r == neutral[..vertexCount]
    ensures s.clothEnabled && delta.Some? ==>
              forall i :: 0 <= i < vertexCount ==>
                OnSegment(r[i], neutral[i], delta.value[i], Saturate(s.weight))
    ensures s.clothEnabled && delta.Some? && s.maskInfluence <= 0.0 ==>
              forall i :: 0 <= i < vertexCount ==>
                r[i] == Add(neutral[i], Scale(delta.value[i], Saturate(s.weight)))
  {
    if s.clothEnabled && delta.Some? then
      var r := seq(vertexCount, i requires 0 <= i < vertexCount =>
        Add(neutral[i], Scale(delta.value[i], VertexWeight(s, ColourAt(s, colours, i)))));
      assert s.weight <= 0.0 ==> r == neutral[..vertexCount] by {
        if s.weight <= 0.0 {
          forall i | 0 <= i < vertexCount
            ensures r[i] == neutral[i]
          {
            AddScaleZero(neutral[i], delta.value[i]);
          }
        }
      }
      assert forall i :: 0 <= i < vertexCount ==>
               OnSegment(r[i], neutral[i], delta.value[i], Saturate(s.weight)) by {
        forall i | 0 <= i < vertexCount
          ensures OnSegment(r[i], neutral[i], delta.value[i], Saturate(s.weight))
        {
          var w := VertexWeight(s, ColourAt(s, colours, i));
          assert r[i] == Add(neutral[i], Scale(delta.value[i], w));
        }
      }
      r
    else
      neutral[..vertexCount]
  }

  /** With full mask influence, a vertex whose mask byte is zero stays at its
      neutral position even at full weight and with a non-zero delta. */
  lemma MaskedOutVertexIsNeutral(neutral: seq<Vec3>, vertexCount: nat, s: BlendSettings,
                                 delta: Option<seq<Vec3>>, colours: seq<int>, i: nat)
    requires ApplyInputsValid(neutral, vertexCount, s, delta, colours)
    requires s.maskInfluence >= 1.0
    requires i < vertexCount && i < |colours| && IsUInt32(colours[i]) && MaskByte(colours[i]) == 0
    ensures ApplyDeformCpu(neutral, vertexCount, s, delta, colours)[i] == neutral[i]
  {
    if s.clothEnabled && delta.Some? {
      assert MaskFactor(s.maskInfluence, colours[i]) == 0.0;
      AddScaleZero(neutral[i], delta.value[i]);
    }
  }

  /** A vertex with a zero delta stays at its neutral position. */
  lemma ZeroDeltaIsNeutral(neutral: seq<Vec3>, vertexCount: nat, s: BlendSettings,
                           delta: Option<seq<Vec3>>, colours: seq<int>, i: nat)
    requires ApplyInputsValid(neutral, vertexCount, s, delta, colours)
    requires i < vertexCount
    requires delta.Some? && s.clothEnabled ==> delta.value[i] == Zero
    ensures ApplyDeformCpu(neutral, vertexCount, s, delta, colours)[i] == neutral[i]
  {
  }

  /** At full weight with the mask off, the whole delta is applied. */
  lemma FullWeightAppliesDelta(neutral: seq<Vec3>, vertexCount: nat, s: BlendSettings,
                               delta: Option<seq<Vec3>>, colours: seq<int>, i: nat)
    requires ApplyInputsValid(neutral, vertexCount, s, delta, colours)
    requires s.clothEnabled && delta.Some? && s.weight >= 1.0 && s.maskInfluence <= 0.0
    requires i < vertexCount
    ensures ApplyDeformCpu(neutral, vertexCount, s, delta, colours)[i] == Add(neutral[i], delta.value[i])
  {
  }

  /** The weights bound to the GPU kernel (`_DeformationWeight`,
      `_DeformationWeightMaskInfluence`): clamped, and both zero when the
      cloth deformation is off. */
  function GpuBlendParams(s: BlendSettings): (p: (real, real))
    ensures 0.0 <= p.0 <= 1.0 && 0.0 <= p.1 <= 1.0
    ensures !s.clothEnabled ==> p == (0.0, 0.0)
  {
    if s.clothEnabled then (Saturate(s.weight), Saturate(s.maskInfluence)) else (0.0, 0.0)
  }

  /** The GPU parameters carry the same blend as the CPU path: run through the
      CPU formula they give the same per-vertex weight as the original
      settings, and when the deformation is off they give weight zero, which
      leaves every vertex neutral as the CPU path does. */
  lemma GpuParamsMatchCpuWeights(s: BlendSettings, colour: int)
    requires s.maskInfluence > 0.0 ==> IsUInt32(colour)
    ensures var p := GpuBlendParams(s);
            var g := BlendSettings(true, p.0, p.1);
            && (s.clothEnabled ==> VertexWeight(g, colour) == VertexWeight(s, colour))
            && (!s.clothEnabled ==> VertexWeight(g, colour) == 0.0)
  {
  }
}

=== FILE: dispatch.dfy ===
/** `GetDispatchGroupsCount`: how many thread groups of width `groupX` cover
    `threadCount` threads. The source computes in 32-bit unsigned arithmetic,
    `(threadCount + groupX - 1) / groupX`, and casts the quotient to a signed
    32-bit int; both the wrap-around and the cast are written out here.
 */
module Dispatch {
  import opened Arith

  /** Reinterpret an unsigned 32-bit value as a signed one (`(int)` cast). */
  function AsInt32(u: int): (r: int)
    requires IsUInt32(u)
    ensures -Two31 <= r < Two31
    ensures u < Two31 ==> r == u
    ensures (u - r) % Two32 == 0
  {
    if u < Two31 then u else u - Two32
  }

  function DispatchGroupsCount(threadCount: int, groupX: int): (g: int)
    requires IsUInt32(threadCount) && IsUInt32(groupX) && groupX > 0
    ensures threadCount < Two31 && groupX <= Two31 ==>
              0 <= g && g * groupX >= threadCount && (g - 1) * groupX < threadCount
  {
    var sum := (threadCount + groupX - 1) % Two32;
    if threadCount < Two31 && groupX <= Two31 then
      assert sum == threadCount + groupX - 1;
      CeilDivBounds(threadCount, groupX);
      AsInt32(sum / groupX)
    else
      QuotientBound(sum, groupX);
      AsInt32(sum / groupX)
  }

  lemma QuotientBound(s: int, d: int)
    requires 0 <= s && 0 < d
    ensures 0 <= s / d <= s
  {
    var q := s / d;
    assert s == q * d + s % d;
    if q < 0 { MulLe(q, -1, d); }
    if q > s { MulLe(1, d, q); }
  }

  /** Euclidean facts behind the ceiling division. */
  lemma CeilDivBounds(t: int, d: int)
    requires 0 <= t && 0 < d
    ensures 0 <= (t + d - 1) / d <= t
    ensures (t + d - 1) / d * d >= t
    ensures ((t + d - 1) / d - 1) * d < t
  {
    var s := t + d - 1;
    var q := s / d;
    var r := s % d;
    assert s == q * d + r && 0 <= r < d;
    assert (q - 1) * d == q * d - d;
    if q < 0 { MulLe(q, -1, d); }
    if q >= 1 { MulLe(1, d, q - 1); }
  }

  /** Outside the signed range the source's arithmetic shows through. Near
      the top of the unsigned range the sum wraps and the source asks for no
      groups at all; a quotient of 2^31 or more comes back negative from the
      `(int)` cast. Callers pass non-negative signed counts, which never reach
      either region. */
  lemma DispatchGroupsCountWraps()
    ensures DispatchGroupsCount(0xFFFF_FFFF, 64) == 0
    ensures DispatchGroupsCount(Two31, 1) == -Two31
  {
    assert (0xFFFF_FFFF + 64 - 1) % Two32 == 62;
    assert (Two31 + 1 - 1) % Two32 == Two31;
  }

  /** For counts that fit a signed int the result is the least sufficient
      number of groups: any `h` groups that cover the threads are at least `g`. */
  lemma DispatchGroupsCountLeast(threadCount: int, groupX: int, h: int)
    requires 0 <= threadCount < Two31 && 0 < groupX <= Two31
    requires h * groupX >= threadCount
    ensures DispatchGroupsCount(threadCount, groupX) <= h
  {
    var g := DispatchGroupsCount(threadCount, groupX);
    if g > h {
      MulLe(h, g - 1, groupX);
    }
  }
}

=== FILE: frame.dfy ===
/** One CPU frame of the deformer (the CPU branch of `LateUpdate`): read back
    and scatter the network outputs into the delta buffer, then blend. Running
    the network is outside the model: its per-patch outputs are inputs here.

    When the read-back bails out before touching the delta buffer (no input
    tensors, no worker, or an input tensor of the wrong type), the blend
    still runs, with whatever delta buffer the previous frame left.
 */
module Frame {
  import opened Vectors
  import opened Options
  import opened DeltaScatter
  import opened Blend
  import opened Arith

  method CpuFrame(
    neutral: seq<Vec3>, vertexCount: nat,
    patches: seq<seq<int>>, outputs: seq<seq<real>>, lo: real, hi: real,
    s: BlendSettings, colours: seq<int>,
    previousDelta: Option<seq<Vec3>>, readbackRuns: bool)
    returns (delta: Option<seq<Vec3>>, resolved: seq<Vec3>)
    requires vertexCount <= |neutral|
    requires readbackRuns ==> ScanInBounds(patches, outputs) && ScatteredIdsInRange(patches, outputs, vertexCount)
    requires !readbackRuns ==> ApplyInputsValid(neutral, vertexCount, s, previousDelta, colours)
    requires readbackRuns && s.clothEnabled && s.maskInfluence > 0.0 ==>
               vertexCount <= |colours| && forall i :: 0 <= i < vertexCount ==> IsUInt32(colours[i])
    ensures !readbackRuns ==> delta == previousDelta
    ensures readbackRuns ==> delta.Some? && |delta.value| == vertexCount
    ensures readbackRuns ==>
              forall v :: 0 <= v < vertexCount ==>
                delta.value[v] == LastWrite(AllWrites(patches, outputs, FirstMismatch(patches, outputs, 0), lo, hi), v).GetOr(Zero)
    ensures ApplyInputsValid(neutral, vertexCount, s, delta, colours)
    ensures resolved == ApplyDeformCpu(neutral, vertexCount, s, delta, colours)
    ensures |resolved| == vertexCount
    ensures readbackRuns ==>
              forall v :: 0 <= v < vertexCount && !Covered(patches, FirstMismatch(patches, outputs, 0), v) ==>
                resolved[v] == neutral[v]
    ensures !s.clothEnabled ==> resolved == neutral[..vertexCount]
  {
    if readbackRuns {
      var d := ScatterDeltas(vertexCount, patches, outputs, lo, hi);
      delta := Some(d);
      ghost var m := FirstMismatch(patches, outputs, 0);
      forall v | 0 <= v < vertexCount && !Covered(patches, m, v)
        ensures d[v] == Zero
      {
        WrittenIffCovered(patches, outputs, m, lo, hi, v);
      }
    } else {
      delta := previousDelta;
    }
    resolved := ApplyDeformCpu(neutral, vertexCount, s, delta, colours);
  }
}

=== FILE: layout.dfy ===
/** Flat "arena + offset/length" layout of a list of lists.

    Both dense tables the deformer builds (the patch-to-vertex table and the
    per-vertex adjacency table) store a sequence of variable-length lists as one
    flat sequence plus a prefix-sum offset per list. This module defines that
    layout once and proves the facts both tables rely on: list `i` starts at
    the sum of the lengths before it, its elements sit contiguously there, and
    slices of different lists never overlap.
 */
module Layout {

  /** Sum of the lengths of all lists in `xss`. */
  function TotalLength<T>(xss: seq<seq<T>>): nat
  {
    if |xss| == 0 then 0 else TotalLength(xss[..|xss| - 1]) + |xss[|xss| - 1]|
  }

  /** All lists of `xss` laid end to end, in list order. */
  function Concat<T>(xss: seq<seq<T>>): (r: seq<T>)
    ensures |r| == TotalLength(xss)
  {
    if |xss| == 0 then [] else Concat(xss[..|xss| - 1]) + xss[|xss| - 1]
  }

  /** Where list `i` starts in `Concat(xss)`. */
  function StartOf<T>(xss: seq<seq<T>>, i: nat): nat
    requires i <= |xss|
  {
    TotalLength(xss[..i])
  }

  /** Taking one more list adds exactly that list's length to the prefix sum
      and appends exactly that list to the flat sequence. */
  lemma {:induction false} PrefixStep<T>(xss: seq<seq<T>>, i: nat)
    requires i < |xss|
    ensures TotalLength(xss[..i + 1]) == TotalLength(xss[..i]) + |xss[i]|
    ensures Concat(xss[..i + 1]) == Concat(xss[..i]) + xss[i]
  {
    assert xss[..i + 1][..i] == xss[..i];
  }

  /** Prefix sums never decrease and never exceed the total. */
  lemma {:induction false} PrefixMonotone<T>(xss: seq<seq<T>>, i: nat, k: nat)
    requires i <= k <= |xss|
    ensures TotalLength(xss[..i]) <= TotalLength(xss[..k]) <= TotalLength(xss)
  {
    PrefixGrows(xss, i, k);
    PrefixGrows(xss, k, |xss|);
    assert xss[..|xss|] == xss;
  }

  lemma {:induction false} PrefixGrows<T>(xss: seq<seq<T>>, i: nat, k: nat)
    requires i <= k <= |xss|
    ensures TotalLength(xss[..i]) <= TotalLength(xss[..k])
    decreases k - i
  {
    if i < k {
      PrefixStep(xss, i);
      PrefixGrows(xss, i + 1, k);
    }
  }

  /** The `j`-th element of list `i` sits at `StartOf(xss, i) + j` in the flat
      sequence. */
  lemma {:induction false} ConcatIndex<T>(xss: seq<seq<T>>, i: nat, j: nat)
    requires i < |xss| && j < |xss[i]|
    ensures StartOf(xss, i) + j < TotalLength(xss)
    ensures Concat(xss)[StartOf(xss, i) + j] == xss[i][j]
  {
    PrefixStep(xss, i);
    PrefixMonotone(xss, i + 1, |xss|);
    assert Concat(xss) == Concat(xss[..|xss|]) by { assert xss[..|xss|] == xss; }
    ConcatPrefix(xss, i + 1, |xss|);
    assert Concat(xss[..i + 1])[StartOf(xss, i) + j] == xss[i][j];
  }

  /** The flat sequence of a prefix of the lists is a prefix of the flat
      sequence of a longer prefix. */
  lemma {:induction false} ConcatPrefix<T>(xss: seq<seq<T>>, i: nat, k: nat)
    requires i <= k <= |xss|
    ensures TotalLength(xss[..i]) <= |Concat(xss[..k])|
    ensures Concat(xss[..k])[..TotalLength(xss[..i])] == Concat(xss[..i])
    decreases k - i
  {
    if i < k {
      PrefixStep(xss, k - 1);
      ConcatPrefix(xss, i, k - 1);
      PrefixMonotone(xss, i, k - 1);
      var a := Concat(xss[..k - 1]);
      assert Concat(xss[..k]) == a + xss[k - 1];
      assert (a + xss[k - 1])[..TotalLength(xss[..i])] == a[..TotalLength(xss[..i])];
    }
  }

  /** Slicing the flat sequence at list `i`'s offset and length gives back
      exactly list `i`: the layout loses nothing. */
  lemma {:induction false} SliceRecovers<T>(xss: seq<seq<T>>, i: nat)
    requires i < |xss|
    ensures StartOf(xss, i) + |xss[i]| <= TotalLength(xss)
    ensures Concat(xss)[StartOf(xss, i)..StartOf(xss, i) + |xss[i]|] == xss[i]
  {
    PrefixStep(xss, i);
    PrefixMonotone(xss, i + 1, |xss|);
    var s := StartOf(xss, i);
    var e := s + |xss[i]|;
    var all := Concat(xss);
    assert all == Concat(xss[..|xss|]) by { assert xss[..|xss|] == xss; }
    ConcatPrefix(xss, i + 1, |xss|);
    var head := Concat(xss[..i]);
    assert all[..e] == head + xss[i];
    assert all[s..e] == all[..e][s..];
    assert (head + xss[i])[|head|..] == xss[i];
  }

  /** Slices of different lists are disjoint and ordered by list index: list
      `i` ends no later than any later list `k` starts. */
  lemma SlicesOrdered<T>(xss: seq<seq<T>>, i: nat, k: nat)
    requires i < k < |xss|
    ensures StartOf(xss, i) + |xss[i]| <= StartOf(xss, k)
  {
    PrefixStep(xss, i);
    PrefixMonotone(xss, i + 1, k);
  }

  /** The prefix sum can also be peeled from the front. */
  lemma {:induction false} TotalLengthCons<T>(xss: seq<seq<T>>)
    requires |xss| > 0
    ensures TotalLength(xss) == |xss[0]| + TotalLength(xss[1..])
    decreases |xss|
  {
    if |xss| > 1 {
      var init := xss[..|xss| - 1];
      TotalLengthCons(init);
      assert init[1..] == xss[1..][..|xss[1..]| - 1];
    } else {
      assert xss[..0] == [];
    }
  }
}

=== FILE: lifecycle.dfy ===
/** Resource lifecycle of one deformer instance (`OnEnable`, `LateUpdate`,
    `InitResources`/`CreateSentisResources`, `FreeResources`), as a state
    machine over what the instance holds. Loading the network and creating
    the worker always succeed in this model; the patch asset decides the
    rest.

    `_resourcesInitialized` is set once the patch tables are built and is
    never cleared: neither `FreeResources` nor an initialisation that finds no
    patch lists touches it. `FreePolicy` selects between that behaviour
    (`AsWritten`) and one that clears the flag wherever the patch lists are
    dropped (`ClearsFlag`), so both can be stated and compared.
 */
module Lifecycle {
  import opened Options
  import opened Layout

  datatype Backend = Cpu | Gpu

  /** The patch asset: absent, or present with its per-patch id lists (which
      may themselves be missing) and its declared total vertex count. */
  datatype PatchAsset = PatchAsset(patches: Option<seq<seq<int>>>, vertexCount: nat)

  /** What happened to the instance's resources, in order. */
  datatype Event = Freed | WorkerCreated(backend: Backend) | TablesBuilt

  datatype Deformer = Deformer(
    backend: Backend,             // `_backend`, set from the inspector
    latestBackend: Backend,       // `_latestBackend`
    resourcesInitialized: bool,   // `_resourcesInitialized`
    workerLive: bool,             // the inference worker exists and is not disposed
    workerBackend: Backend,       // the backend the worker was created for
    tablesLive: bool,             // `_mRenderPatches` is set
    events: seq<Event>)

  datatype FreePolicy = AsWritten | ClearsFlag

  /** Outcome of `InitResources`: it returns normally, or the flattening loop
      writes past the declared vertex count and throws (with Unity's
      collection safety checks on). */
  datatype InitResult = Completed(after: Deformer) | Threw(after: Deformer)

  datatype FrameAction =
    | Aborted                // re-initialisation threw; failures inside the CPU/GPU paths are not modelled
    | Skipped                // "resources not initialized"
    | RunCpu                 // read back, scatter and blend on the CPU
    | WrongWorkerBackend     // GPU selected but the worker is not a GPU worker
    | RunGpu                 // record inference and deformation dispatches

  /** `FreeResources`: dispose the worker and the patch tables. */
  function FreeResources(d: Deformer, policy: FreePolicy): (r: Deformer)
    ensures !r.workerLive && !r.tablesLive
    ensures r.events == d.events + [Freed]
    ensures r.backend == d.backend && r.latestBackend == d.latestBackend
    ensures policy == AsWritten ==> r.resourcesInitialized == d.resourcesInitialized
    ensures policy == ClearsFlag ==> !r.resourcesInitialized
  {
    d.(workerLive := false, tablesLive := false, events := d.events + [Freed],
       resourcesInitialized := if policy == ClearsFlag then false else d.resourcesInitialized)
  }

  /** Teardown is idempotent: a second one releases nothing further and
      changes nothing but the event log. Under the corrected policy it also
      leaves the flag consistent with the (absent) patch tables. */
  lemma FreeResourcesIdempotent(d: Deformer, policy: FreePolicy)
    ensures var once := FreeResources(d, policy);
            && FreeResources(once, policy) == once.(events := once.events + [Freed])
            && (policy == ClearsFlag ==> FlagHonest(once))
  {
  }

  /** `InitResources`: create a worker for the configured backend, then read
      the patch asset. A missing asset ends the call early with the tables and
      the flag untouched. Missing patch lists end it after the patch list
      reference has been overwritten with null; as written the flag is left
      as it was, under `ClearsFlag` it is cleared with them. Too many ids for
      the declared count throw from the flattening loop; otherwise the tables
      are built and the flag is set. */
  function InitResources(d: Deformer, asset: Option<PatchAsset>, policy: FreePolicy): (r: InitResult)
    ensures r.after.workerLive && r.after.workerBackend == d.backend
    ensures r.after.backend == d.backend && r.after.latestBackend == d.latestBackend
    ensures r.Threw? <==> asset.Some? && asset.value.patches.Some?
                          && TotalLength(asset.value.patches.value) > asset.value.vertexCount
    ensures asset.Some? && asset.value.patches.None? ==> !r.after.tablesLive
    ensures policy == AsWritten ==>
              (r.after.resourcesInitialized <==>
                 d.resourcesInitialized || (r.Completed? && asset.Some? && asset.value.patches.Some?))
    ensures policy == ClearsFlag ==>
              (r.after.resourcesInitialized <==>
                 || (d.resourcesInitialized && (asset.None? || asset.value.patches.Some?))
                 || (r.Completed? && asset.Some? && asset.value.patches.Some?))
    ensures r.after.resourcesInitialized && !d.resourcesInitialized ==> r.after.tablesLive
    ensures r.after.events == d.events + [WorkerCreated(d.backend)] ||
            r.after.events == d.events + [WorkerCreated(d.backend), TablesBuilt]
  {
    var withWorker := d.(workerLive := true, workerBackend := d.backend,
                         events := d.events + [WorkerCreated(d.backend)]);
    if asset.None? then Completed(withWorker)
    else if asset.value.patches.None? then
      Completed(withWorker.(tablesLive := false,
                            resourcesInitialized := if policy == ClearsFlag then false else d.resourcesInitialized))
    else if TotalLength(asset.value.patches.value) > asset.value.vertexCount then
      Threw(withWorker.(tablesLive := true))
    else
      Completed(withWorker.(tablesLive := true, resourcesInitialized := true,
                            events := withWorker.events + [TablesBuilt]))
  }

  /** `LateUpdate`, up to the choice of backend path. A changed backend first
      frees everything, then re-initialises, then records the new backend. */
  function LateUpdate(d: Deformer, asset: Option<PatchAsset>, policy: FreePolicy): (r: (Deformer, FrameAction))
    ensures r.0.backend == d.backend
    ensures d.latestBackend == d.backend ==> r.0 == d
    ensures r.1 == Aborted ==> d.latestBackend != d.backend
    ensures r.1 != Aborted ==> r.0.latestBackend == d.backend
    ensures r.1 == RunCpu || r.1 == RunGpu ==> r.0.resourcesInitialized
    ensures r.1 == RunCpu ==> d.backend == Cpu
    ensures r.1 == RunGpu ==> d.backend.Gpu?
    ensures r.1 == RunGpu ==> r.0.workerBackend == Gpu
  {
    var (d1, threw) :=
      if d.latestBackend != d.backend then
        match InitResources(FreeResources(d, policy), asset, policy)
        case Threw(after) => (after, true)
        case Completed(after) => (after.(latestBackend := d.backend), false)
      else (d, false);
    if threw then (d1, Aborted)
    else if !d1.resourcesInitialized then (d1, Skipped)
    else if d.backend == Cpu then (d1, RunCpu)
    else if d1.workerBackend != Gpu then (d1, WrongWorkerBackend)
    else (d1, RunGpu)
  }

  /** `OnEnable`: initialise (without teardown first), then record the
      backend in use. */
  function OnEnable(d: Deformer, asset: Option<PatchAsset>, policy: FreePolicy): (r: InitResult)
    ensures r.after.workerLive && r.after.workerBackend == d.backend
    ensures r.Completed? ==> r.after.latestBackend == d.backend
  {
    match InitResources(d, asset, policy)
    case Threw(after) => Threw(after)
    case Completed(after) => Completed(after.(latestBackend := d.backend))
  }

  /** The instance's worker was made for the backend it last recorded. */
  predicate WorkerMatchesRecorded(d: Deformer)
  {
    d.workerLive && d.workerBackend == d.latestBackend
  }

  /** A backend change is handled as teardown, then re-initialisation for the
      new backend, then recording it; afterwards the worker matches the
      configured backend, so the GPU path never meets a CPU worker. */
  lemma BackendSwitchReprovisions(d: Deformer, asset: Option<PatchAsset>, policy: FreePolicy)
    requires d.latestBackend != d.backend
    ensures var (r, action) := LateUpdate(d, asset, policy);
            && (r.events == d.events + [Freed, WorkerCreated(d.backend)] ||
                r.events == d.events + [Freed, WorkerCreated(d.backend), TablesBuilt])
            && r.workerLive && r.workerBackend == d.backend
            && (action != Aborted ==> r.latestBackend == d.backend && WorkerMatchesRecorded(r))
            && action != WrongWorkerBackend
  {
  }

  /** Without a backend change nothing is freed or created, and a consistent
      instance never reaches the wrong-worker error. */
  lemma SteadyFrameKeepsResources(d: Deformer, asset: Option<PatchAsset>, policy: FreePolicy)
    requires d.latestBackend == d.backend
    requires WorkerMatchesRecorded(d)
    ensures LateUpdate(d, asset, policy).0 == d
    ensures LateUpdate(d, asset, policy).1 ==
              if !d.resourcesInitialized then Skipped else if d.backend == Cpu then RunCpu else RunGpu
  {
  }

  /** As written, the flag survives teardown: a frame never clears it. */
  lemma FlagNeverCleared(d: Deformer, asset: Option<PatchAsset>)
    requires d.resourcesInitialized
    ensures LateUpdate(d, asset, AsWritten).0.resourcesInitialized
  {
  }

  /** As written, a backend change while the patch asset is unassigned frees
      the patch tables (the patch list reference is reset to null) but keeps
      the stale flag, so the frame goes on to the CPU path, whose read-back
      then dereferences the null patch list and throws. */
  lemma StaleFlagRunsWithoutTables()
    ensures var d := Deformer(Cpu, Gpu, true, true, Gpu, true, []);
            var (r, action) := LateUpdate(d, None, AsWritten);
            action == RunCpu && !r.tablesLive
  {
  }

  /** The instance runs a frame only with its patch tables in place. */
  predicate FlagHonest(d: Deformer)
  {
    d.resourcesInitialized ==> d.tablesLive
  }

  /** With the flag cleared wherever the patch lists are dropped, a frame that
      runs a backend path always has its patch tables, and the flag stays
      honest from frame to frame. */
  lemma ClearedFlagKeepsFramesHonest(d: Deformer, asset: Option<PatchAsset>)
    requires FlagHonest(d)
    ensures var (r, action) := LateUpdate(d, asset, ClearsFlag);
            && FlagHonest(r)
            && (action == RunCpu || action == RunGpu ==> r.tablesLive)
  {
  }

  /** As written, enabling an initialised instance whose patch asset has no
      patch lists re-initialises without teardown: the patch list reference
      is overwritten with null but the flag stays set, so the next frame runs
      the CPU path without tables. */
  lemma OnEnableStaleFlag()
    ensures var d := Deformer(Cpu, Cpu, true, true, Cpu, true, []);
            var asset := Some(PatchAsset(None, 0));
            var r := OnEnable(d, asset, AsWritten);
            && FlagHonest(d)
            && r.Completed? && !FlagHonest(r.after)
            && LateUpdate(r.after, asset, AsWritten).1 == RunCpu
            && !LateUpdate(r.after, asset, AsWritten).0.tablesLive
  {
  }

  /** With the flag cleared wherever the patch lists are dropped,
      initialisation, and so enabling, keeps the flag honest whatever the
      asset holds, and a following frame runs a backend path only with its
      tables. */
  lemma OnEnableKeepsFlagHonest(d: Deformer, asset: Option<PatchAsset>)
    requires FlagHonest(d)
    ensures FlagHonest(InitResources(d, asset, ClearsFlag).after)
    ensures var r := OnEnable(d, asset, ClearsFlag).after;
            && FlagHonest(r)
            && (LateUpdate(r, asset, ClearsFlag).1 == RunCpu || LateUpdate(r, asset, ClearsFlag).1 == RunGpu ==>
                  LateUpdate(r, asset, ClearsFlag).0.tablesLive)
  {
    ClearedFlagKeepsFramesHonest(OnEnable(d, asset, ClearsFlag).after, asset);
  }
}

=== FILE: option.dfy ===
/** The optional value used throughout the model for "absent" (a null
    reference, a write that never happened, an aborted initialisation). */
module Options {

  datatype Option<+T> = None | Some(value: T) {

    /** The carried value, or `default` when absent. */
    function GetOr(default: T): T
    {
      match this
      case Some(v) => v
      case None => default
    }
  }
}

=== FILE: patch_export.dfy ===
/** Binary export of the patch table (`ConvertVertexListsToBin`). The file is
    the patches in table order, each written as its length followed by its
    vertex ids, every number a 4-byte little-endian two's-complement integer
    as a .NET `BinaryWriter` writes an `int`.

    Nothing in the deformer reads the file back; `ImportPatches` is the
    reference reader the format is checked against.
 */
module PatchExport {
  import opened Layout
  import opened Options
  import opened Arith

  type byte = b: int | 0 <= b < 256

  /** Every length and every id fits a signed 32-bit int, as the source's
      `int`-typed lists guarantee. */
  predicate AllInt32(ps: seq<seq<int>>)
  {
    && (forall p :: 0 <= p < |ps| ==> IsInt32(|ps[p]|))
    && (forall p, k :: 0 <= p < |ps| && 0 <= k < |ps[p]| ==> IsInt32(ps[p][k]))
  }

  function EncodeInt32(v: int): (bs: seq<byte>)
    requires IsInt32(v)
    ensures |bs| == 4
  {
    var u := if v < 0 then v + Two32 else v;
    [u % 0x100, (u / 0x100) % 0x100, (u / 0x1_0000) % 0x100, u / 0x100_0000]
  }

  function DecodeInt32(bs: seq<byte>): (v: int)
    requires |bs| == 4
    ensures IsInt32(v)
  {
    var u := bs[0] as int + 0x100 * (bs[1] as int) + 0x1_0000 * (bs[2] as int) + 0x100_0000 * (bs[3] as int);
    if u < Two31 then u else u - Two32
  }

  /** Little-endian digits of an unsigned value below 2^32. */
  lemma Digits(u: int)
    requires 0 <= u < Two32
    ensures 0 <= u / 0x100_0000 < 0x100
    ensures u == u % 0x100 + 0x100 * ((u / 0x100) % 0x100)
                 + 0x1_0000 * ((u / 0x1_0000) % 0x100) + 0x100_0000 * (u / 0x100_0000)
  {
    var a := u / 0x100;
    var b := a / 0x100;
    var c := b / 0x100;
    assert u == u % 0x100 + 0x100 * a;
    assert a == a % 0x100 + 0x100 * b;
    assert b == b % 0x100 + 0x100 * c;
    assert b == u / 0x1_0000;
    assert c == u / 0x100_0000;
  }

  /** Every 32-bit integer survives a write and a read. */
  lemma Int32RoundTrip(v: int)
    requires IsInt32(v)
    ensures DecodeInt32(EncodeInt32(v)) == v
  {
    var u := if v < 0 then v + Two32 else v;
    Digits(u);
  }

  /** Every four bytes are the encoding of the integer read from them. */
  lemma Int32BytesRoundTrip(bs: seq<byte>)
    requires |bs| == 4
    ensures EncodeInt32(DecodeInt32(bs)) == bs
  {
    var u := bs[0] as int + 0x100 * (bs[1] as int) + 0x1_0000 * (bs[2] as int) + 0x100_0000 * (bs[3] as int);
    var t := bs[1] as int + 0x100 * (bs[2] as int) + 0x1_0000 * (bs[3] as int);
    assert u == bs[0] + 0x100 * t;
    assert u % 0x100 == bs[0] && u / 0x100 == t;
    var t2 := bs[2] as int + 0x100 * (bs[3] as int);
    assert t == bs[1] + 0x100 * t2;
    assert t % 0x100 == bs[1] && t / 0x100 == t2;
    assert u / 0x1_0000 == t2 by { DivDiv(u, 0x100, 0x100); }
    assert t2 % 0x100 == bs[2] && t2 / 0x100 == bs[3];
    assert u / 0x100_0000 == bs[3] by { DivDiv(u, 0x1_0000, 0x100); }
    assert EncodeInt32(DecodeInt32(bs))
        == [u % 0x100, (u / 0x100) % 0x100, (u / 0x1_0000) % 0x100, u / 0x100_0000];
  }

  function EncodeInts(xs: seq<int>): (bs: seq<byte>)
    requires forall k :: 0 <= k < |xs| ==> IsInt32(xs[k])
    ensures |bs| == 4 * |xs|
  {
    if |xs| == 0 then [] else EncodeInt32(xs[0]) + EncodeInts(xs[1..])
  }

  /** One patch: its length, then its ids. */
  function EncodePatch(p: seq<int>): (bs: seq<byte>)
    requires IsInt32(|p|)
    requires forall k :: 0 <= k < |p| ==> IsInt32(p[k])
    ensures |bs| == 4 * (1 + |p|)
  {
    EncodeInt32(|p|) + EncodeInts(p)
  }

  /** The exported file: every patch in table order. It takes four bytes per
      patch for the length plus four per id. */
  function ExportPatches(ps: seq<seq<int>>): (bs: seq<byte>)
    requires AllInt32(ps)
    ensures |bs| == 4 * (|ps| + TotalLength(ps))
  {
    if |ps| == 0 then []
    else
      TotalLengthCons(ps);
      EncodePatch(ps[0]) + ExportPatches(ps[1..])
  }

  function DecodeInts(bs: seq<byte>, n: nat): (xs: seq<int>)
    requires |bs| == 4 * n
    ensures |xs| == n
    ensures forall k :: 0 <= k < n ==> IsInt32(xs[k])
  {
    if n == 0 then [] else [DecodeInt32(bs[..4])] + DecodeInts(bs[4..], n - 1)
  }

  /** Reference reader: a length, then that many ids, until the input ends.
      A negative length or a truncated record is rejected. */
  function ImportPatches(bs: seq<byte>): Option<seq<seq<int>>>
    decreases |bs|
  {
    if |bs| == 0 then Some([])
    else if |bs| < 4 then None
    else
      var n := DecodeInt32(bs[..4]);
      if n < 0 || |bs| < 4 + 4 * n then None
      else
        match ImportPatches(bs[4 + 4 * n..])
        case None => None
        case Some(rest) => Some([DecodeInts(bs[4..4 + 4 * n], n)] + rest)
  }

  lemma {:induction false} IntsRoundTrip(xs: seq<int>)
    requires forall k :: 0 <= k < |xs| ==> IsInt32(xs[k])
    ensures DecodeInts(EncodeInts(xs), |xs|) == xs
    decreases |xs|
  {
    if |xs| > 0 {
      var bs := EncodeInts(xs);
      assert bs[..4] == EncodeInt32(xs[0]);
      assert bs[4..] == EncodeInts(xs[1..]);
      Int32RoundTrip(xs[0]);
      IntsRoundTrip(xs[1..]);
    }
  }

  lemma {:induction false} IntsBytesRoundTrip(bs: seq<byte>, n: nat)
    requires |bs| == 4 * n
    ensures EncodeInts(DecodeInts(bs, n)) == bs
    decreases n
  {
    if n > 0 {
      var xs := DecodeInts(bs, n);
      assert xs[1..] == DecodeInts(bs[4..], n - 1);
      Int32BytesRoundTrip(bs[..4]);
      IntsBytesRoundTrip(bs[4..], n - 1);
      assert bs == bs[..4] + bs[4..];
    }
  }

  /** Reading the exported file gives back the patch table exactly. */
  lemma {:induction false} ExportImportRoundTrip(ps: seq<seq<int>>)
    requires AllInt32(ps)
    ensures ImportPatches(ExportPatches(ps)) == Some(ps)
    decreases |ps|
  {
    if |ps| > 0 {
      var p, tail := ps[0], ps[1..];
      AllInt32Tail(ps);
      assert [p] + tail == ps;
      ExportCons(p, tail);
      ExportImportRoundTrip(tail);
      ImportCons(p, ExportPatches(tail));
    }
  }

  lemma AllInt32Tail(ps: seq<seq<int>>)
    requires |ps| > 0 && AllInt32(ps)
    ensures IsInt32(|ps[0]|) && forall k :: 0 <= k < |ps[0]| ==> IsInt32(ps[0][k])
    ensures AllInt32(ps[1..])
  {
    assert forall q :: 0 <= q < |ps[1..]| ==> ps[1..][q] == ps[q + 1];
  }

  /** The reader takes one record written by the writer off the front. */
  lemma ImportCons(p: seq<int>, rest: seq<byte>)
    requires IsInt32(|p|) && forall k :: 0 <= k < |p| ==> IsInt32(p[k])
    requires ImportPatches(rest).Some?
    ensures ImportPatches(EncodeInt32(|p|) + EncodeInts(p) + rest)
            == Some([p] + ImportPatches(rest).value)
  {
    var n := |p|;
    var bs := EncodeInt32(n) + EncodeInts(p) + rest;
    assert bs[..4] == EncodeInt32(n);
    Int32RoundTrip(n);
    assert bs[4..4 + 4 * n] == EncodeInts(p);
    assert bs[4 + 4 * n..] == rest;
    IntsRoundTrip(p);
  }

  /** One step of the reader on a non-empty accepted input. */
  lemma ImportStep(bs: seq<byte>)
    requires |bs| > 0 && ImportPatches(bs).Some?
    ensures |bs| >= 4 && 0 <= DecodeInt32(bs[..4]) && 4 + 4 * DecodeInt32(bs[..4]) <= |bs|
    ensures var n := DecodeInt32(bs[..4]);
            && ImportPatches(bs[4 + 4 * n..]).Some?
            && ImportPatches(bs).value
               == [DecodeInts(bs[4..4 + 4 * n], n)] + ImportPatches(bs[4 + 4 * n..]).value
  {
  }

  lemma SplitRecord(bs: seq<byte>, n: nat)
    requires 4 + 4 * n <= |bs|
    ensures bs == bs[..4] + bs[4..4 + 4 * n] + bs[4 + 4 * n..]
  {
  }

  /** One step of the writer. */
  lemma ExportCons(p: seq<int>, tail: seq<seq<int>>)
    requires IsInt32(|p|) && forall k :: 0 <= k < |p| ==> IsInt32(p[k])
    requires AllInt32(tail)
    ensures AllInt32([p] + tail)
    ensures ExportPatches([p] + tail) == EncodeInt32(|p|) + EncodeInts(p) + ExportPatches(tail)
  {
    var ps := [p] + tail;
    assert ps[1..] == tail;
    assert forall q :: 1 <= q < |ps| ==> ps[q] == tail[q - 1];
  }

  /** Conversely, any byte string the reader accepts is exactly the export of
      what it reads: the format has one encoding per table. */
  lemma {:induction false} ImportExportRoundTrip(bs: seq<byte>)
    requires ImportPatches(bs).Some?
    ensures AllInt32(ImportPatches(bs).value)
    ensures ExportPatches(ImportPatches(bs).value) == bs
    decreases |bs|
  {
    if |bs| > 0 {
      ImportStep(bs);
      var n := DecodeInt32(bs[..4]);
      var rest := bs[4 + 4 * n..];
      var body := bs[4..4 + 4 * n];
      ImportExportRoundTrip(rest);
      var tail := ImportPatches(rest).value;
      var p := DecodeInts(body, n);
      assert ImportPatches(bs).value == [p] + tail;
      ExportCons(p, tail);
      Int32BytesRoundTrip(bs[..4]);
      assert EncodeInt32(|p|) == bs[..4];
      IntsBytesRoundTrip(body, n);
      assert EncodeInts(p) == body;
      SplitRecord(bs, n);
      calc {
        ExportPatches(ImportPatches(bs).value);
        ExportPatches([p] + tail);
        EncodeInt32(|p|) + EncodeInts(p) + ExportPatches(tail);
        bs[..4] + body + rest;
      }
    }
  }
}

=== FILE: patch_table.dfy ===
/** Patch-table flattening (`CreateSentisResources`). The patch asset lists,
    per patch, the mesh vertex ids whose displacements that patch's network
    output holds. The deformer copies them into three dense tables: every id in
    patch order (`renderVertexIds`, sized to the asset's declared vertex
    count), and each patch's start offset and length in that table.
 */
module PatchTable {
  import opened Layout
  import opened Options

  datatype PatchTables = PatchTables(
    renderVertexIds: seq<int>,
    offsets: seq<int>,
    lengths: seq<int>)

  /** Fill the tables. The id table is allocated zeroed with `vertexCount`
      slots; if the patches hold more ids than that, the write past the end
      raises (with Unity's collection safety checks on) and initialisation is
      abandoned, modelled as `None`. */
  method FlattenPatches(patches: seq<seq<int>>, vertexCount: nat) returns (r: Option<PatchTables>)
    ensures r.None? <==> TotalLength(patches) > vertexCount
    ensures r.Some? ==>
      var t := r.value;
      && |t.renderVertexIds| == vertexCount
      && |t.offsets| == |patches| && |t.lengths| == |patches|
      && t.renderVertexIds[..TotalLength(patches)] == Concat(patches)
      && (forall k :: TotalLength(patches) <= k < vertexCount ==> t.renderVertexIds[k] == 0)
      && (forall i :: 0 <= i < |patches| ==> t.lengths[i] == |patches[i]|)
      && (forall i :: 0 <= i < |patches| ==> t.offsets[i] == StartOf(patches, i))
  {
    var ids := seq(vertexCount, _ => 0);
    var offsets := seq(|patches|, _ => 0);
    var lengths := seq(|patches|, _ => 0);
    var offset := 0;
    var patchOffset := 0;
    var i := 0;
    while i < |patches|
      invariant 0 <= i <= |patches|
      invariant offset == patchOffset == TotalLength(patches[..i]) <= vertexCount
      invariant |ids| == vertexCount && |offsets| == |patches| && |lengths| == |patches|
      invariant ids[..offset] == Concat(patches[..i])
      invariant forall k :: offset <= k < vertexCount ==> ids[k] == 0
      invariant forall q :: 0 <= q < i ==> lengths[q] == |patches[q]|
      invariant forall q :: 0 <= q < i ==> offsets[q] == StartOf(patches, q)
    {
      offsets := offsets[i := patchOffset];
      lengths := lengths[i := |patches[i]|];
      PrefixStep(patches, i);
      var j := 0;
      while j < |patches[i]|
        invariant 0 <= j <= |patches[i]|
        invariant offset == TotalLength(patches[..i]) + j <= vertexCount
        invariant |ids| == vertexCount
        invariant ids[..offset] == Concat(patches[..i]) + patches[i][..j]
        invariant forall k :: offset <= k < vertexCount ==> ids[k] == 0
      {
        if offset >= vertexCount {
          PrefixMonotone(patches, i + 1, |patches|);
          return None;
        }
        ids := ids[offset := patches[i][j]];
        assert ids[..offset + 1] == ids[..offset] + [patches[i][j]];
        assert patches[i][..j + 1] == patches[i][..j] + [patches[i][j]];
        offset := offset + 1;
        j := j + 1;
      }
      assert patches[i][..j] == patches[i];
      patchOffset := patchOffset + |patches[i]|;
      i := i + 1;
    }
    assert patches[..i] == patches;
    r := Some(PatchTables(ids, offsets, lengths));
  }

  /** The offset facts every consumer of the tables relies on, derived from
      the layout: the first patch starts at zero and each offset is the
      previous one plus the previous length (empty patches included). */
  lemma FlattenedOffsetsChain(patches: seq<seq<int>>, t: PatchTables, i: nat)
    requires |t.offsets| == |patches| && |t.lengths| == |patches|
    requires forall q :: 0 <= q < |patches| ==> t.offsets[q] == StartOf(patches, q)
    requires forall q :: 0 <= q < |patches| ==> t.lengths[q] == |patches[q]|
    requires i < |patches|
    ensures i == 0 ==> t.offsets[i] == 0
    ensures i + 1 < |patches| ==> t.offsets[i + 1] == t.offsets[i] + t.lengths[i]
  {
    PrefixStep(patches, i);
  }

  /** The `j`-th id of patch `i` sits at `offsets[i] + j` in the id table. */
  lemma FlattenedTablesIndex(patches: seq<seq<int>>, t: PatchTables, i: nat, j: nat)
    requires |t.offsets| == |patches|
    requires TotalLength(patches) <= |t.renderVertexIds|
    requires t.renderVertexIds[..TotalLength(patches)] == Concat(patches)
    requires forall q :: 0 <= q < |patches| ==> t.offsets[q] == StartOf(patches, q)
    requires i < |patches| && j < |patches[i]|
    ensures && 0 <= t.offsets[i] + j < |t.renderVertexIds|
            && t.renderVertexIds[t.offsets[i] + j] == patches[i][j]
  {
    ConcatIndex(patches, i, j);
    assert t.renderVertexIds[t.offsets[i] + j] == t.renderVertexIds[..TotalLength(patches)][t.offsets[i] + j];
  }
}

=== FILE: remap.dfy ===
/** De-normalisation of the network's output (`Normalize` in the deformer):
    an affine map that sends the encoder range [-1, 1] onto the calibrated
    displacement range [min, max].
 */
module Remap {
  import opened Vectors

  /** Calibration constants the deformer ships with (`minVal`, `maxVal`). */
  const DefaultMin: real := -0.4587218761444092
  const DefaultMax: real := 0.27842265367507935

  /** `Normalize(x, min, max)`: (x + 1) * (max - min) / 2 + min. The ends of
      the encoder range land on the ends of the calibrated range. */
  function Denormalize(x: real, lo: real, hi: real): (y: real)
    ensures x == -1.0 ==> y == lo
    ensures x == 1.0 ==> y == hi
  {
    (x + 1.0) * (hi - lo) / 2.0 + lo
  }

  /** The inverse map, from displacement units back to encoder space. It is
      not part of the deformer; it is the reference against which the
      de-normalisation is shown to lose nothing. */
  function ToEncoderSpace(y: real, lo: real, hi: real): real
    requires lo != hi
  {
    2.0 * (y - lo) / (hi - lo) - 1.0
  }

  /** The ends and the middle of the encoder range land on `min`, `max` and
      their midpoint. */
  lemma DenormalizeAnchors(lo: real, hi: real)
    ensures Denormalize(-1.0, lo, hi) == lo
    ensures Denormalize(1.0, lo, hi) == hi
    ensures Denormalize(0.0, lo, hi) == (lo + hi) / 2.0
  {
  }

  /** With a well-ordered range the map is monotone and keeps [-1, 1] inside
      [min, max]. */
  lemma DenormalizeMonotone(x: real, x': real, lo: real, hi: real)
    requires lo <= hi
    requires x <= x'
    ensures Denormalize(x, lo, hi) <= Denormalize(x', lo, hi)
  {
    var d := hi - lo;
    var p, q := (x + 1.0) * d, (x' + 1.0) * d;
    var a, b := Denormalize(x, lo, hi), Denormalize(x', lo, hi);
    assert a == p / 2.0 + lo;
    assert b == q / 2.0 + lo;
    MulMonotone(x + 1.0, x' + 1.0, d);
    HalfShiftLe(p, q, lo, a, b);
  }

  lemma HalfShiftLe(p: real, q: real, lo: real, a: real, b: real)
    requires p <= q && a == p / 2.0 + lo && b == q / 2.0 + lo
    ensures a <= b
  {
  }

  lemma DenormalizeInRange(x: real, lo: real, hi: real)
    requires lo <= hi
    requires -1.0 <= x <= 1.0
    ensures lo <= Denormalize(x, lo, hi) <= hi
  {
    DenormalizeMonotone(-1.0, x, lo, hi);
    DenormalizeMonotone(x, 1.0, lo, hi);
  }

  /** The map is invertible on a non-degenerate range, in both directions. */
  lemma DenormalizeRoundTrip(x: real, y: real, lo: real, hi: real)
    requires lo != hi
    ensures ToEncoderSpace(Denormalize(x, lo, hi), lo, hi) == x
    ensures Denormalize(ToEncoderSpace(y, lo, hi), lo, hi) == y
  {
    var dn := Denormalize(x, lo, hi);
    ForwardThenBack(x, lo, hi, dn, ToEncoderSpace(dn, lo, hi));
    var e := ToEncoderSpace(y, lo, hi);
    BackThenForward(y, lo, hi, e, Denormalize(e, lo, hi));
  }

  lemma ForwardThenBack(x: real, lo: real, hi: real, y: real, x2: real)
    requires lo != hi
    requires y == (x + 1.0) * (hi - lo) / 2.0 + lo
    requires x2 == 2.0 * (y - lo) / (hi - lo) - 1.0
    ensures x2 == x
  {
    var d := hi - lo;
    assert 2.0 * (y - lo) == (x + 1.0) * d;
    DivCancel(x + 1.0, d);
  }

  lemma BackThenForward(y: real, lo: real, hi: real, e: real, y2: real)
    requires lo != hi
    requires e == 2.0 * (y - lo) / (hi - lo) - 1.0
    requires y2 == (e + 1.0) * (hi - lo) / 2.0 + lo
    ensures y2 == y
  {
    var d := hi - lo;
    assert e + 1.0 == 2.0 * (y - lo) / d;
    assert (e + 1.0) * d == 2.0 * (y - lo);
  }

  lemma DivCancel(a: real, d: real)
    requires d != 0.0
    ensures a * d / d == a
  {
  }

  /** The shipped calibration range is well ordered, so everything above
      applies to it. */
  lemma DefaultRangeOrdered()
    ensures DefaultMin < DefaultMax
  {
  }
}

=== FILE: scatter.dfy ===
/** Delta scatter (the read-back half of `ExecuteAndReadbackSentisCPU`). The
    network produces one flat output per patch, three values per vertex of
    that patch. Each triple is de-normalised and written to the per-vertex
    delta buffer at the vertex id the patch table gives for it.

    The buffer is zeroed first. Outputs are visited in order; the first
    output whose length (divided by three, rounding down) differs from its
    patch's vertex count stops the whole pass, keeping what earlier patches
    wrote. Writes to the same vertex overwrite each other, so the delta of a
    vertex is the value of the LAST write to it, or zero if there was none.
 */
module DeltaScatter {
  import opened Vectors
  import opened Remap
  import opened Options

  /** One store into the delta buffer. */
  datatype Write = Write(vertex: int, value: Vec3)

  /** Whether a patch's output has exactly one triple per patch vertex, as
      the source checks it (integer division by three). */
  predicate Matches(ids: seq<int>, out: seq<real>)
  {
    |out| / 3 == |ids|
  }

  /** The de-normalised `k`-th triple of a patch output. */
  function Triple(out: seq<real>, k: nat, lo: real, hi: real): Vec3
    requires 3 * k + 2 < |out|
  {
    Vec3(Denormalize(out[3 * k], lo, hi),
         Denormalize(out[3 * k + 1], lo, hi),
         Denormalize(out[3 * k + 2], lo, hi))
  }

  /** The stores one matching patch performs, in order. */
  function PatchWrites(ids: seq<int>, out: seq<real>, lo: real, hi: real): (ws: seq<Write>)
    requires Matches(ids, out)
    ensures |ws| == |ids|
    ensures forall k :: 0 <= k < |ids| ==> 3 * k + 2 < |out| && ws[k] == Write(ids[k], Triple(out, k, lo, hi))
  {
    seq(|ids|, k requires 0 <= k < |ids| => Write(ids[k], Triple(out, k, lo, hi)))
  }

  /** Where the scan over the outputs stops: the index of the first output
      that does not match its patch, the number of outputs if all match, or
      the number of patches if every patch matches and outputs remain (the
      point at which the source indexes past the patch list). */
  function FirstMismatch(patches: seq<seq<int>>, outputs: seq<seq<real>>, from: nat): (m: nat)
    requires from <= |outputs| && from <= |patches|
    ensures from <= m <= |outputs| && m <= |patches|
    ensures forall p :: from <= p < m ==> Matches(patches[p], outputs[p])
    ensures m < |outputs| && m < |patches| ==> !Matches(patches[m], outputs[m])
    decreases |outputs| - from
  {
    if from == |outputs| || from == |patches| then from
    else if !Matches(patches[from], outputs[from]) then from
    else FirstMismatch(patches, outputs, from + 1)
  }

  /** Every store of the first `m` patches, patch by patch. */
  function AllWrites(patches: seq<seq<int>>, outputs: seq<seq<real>>, m: nat, lo: real, hi: real): seq<Write>
    requires m <= |outputs| && m <= |patches|
    requires forall p :: 0 <= p < m ==> Matches(patches[p], outputs[p])
  {
    if m == 0 then []
    else AllWrites(patches, outputs, m - 1, lo, hi) + PatchWrites(patches[m - 1], outputs[m - 1], lo, hi)
  }

  /** The value of the last store to vertex `v`, if any. */
  function LastWrite(ws: seq<Write>, v: int): Option<Vec3>
  {
    if |ws| == 0 then None
    else if ws[|ws| - 1].vertex == v then Some(ws[|ws| - 1].value)
    else LastWrite(ws[..|ws| - 1], v)
  }

  /** The scan stops at a mismatch or at the end of the outputs, never by
      running past the patch list (where the source throws an index
      error). */
  predicate ScanInBounds(patches: seq<seq<int>>, outputs: seq<seq<real>>)
  {
    var m := FirstMismatch(patches, outputs, 0);
    m < |patches| || m == |outputs|
  }

  /** Every vertex id of every patch the scan scatters indexes the delta
      buffer. Patches from the first mismatch on are never read. */
  predicate ScatteredIdsInRange(patches: seq<seq<int>>, outputs: seq<seq<real>>, vertexCount: nat)
  {
    var m := FirstMismatch(patches, outputs, 0);
    forall p, k :: 0 <= p < m && 0 <= k < |patches[p]| ==> 0 <= patches[p][k] < vertexCount
  }

  /** The scatter loop. */
  method ScatterDeltas(vertexCount: nat, patches: seq<seq<int>>, outputs: seq<seq<real>>, lo: real, hi: real)
    returns (delta: seq<Vec3>)
    requires ScanInBounds(patches, outputs)
    requires ScatteredIdsInRange(patches, outputs, vertexCount)
    ensures |delta| == vertexCount
    ensures forall v :: 0 <= v < vertexCount ==>
              delta[v] == LastWrite(AllWrites(patches, outputs, FirstMismatch(patches, outputs, 0), lo, hi), v).GetOr(Zero)
  {
    delta := seq(vertexCount, _ => Zero);
    var patch := 0;
    while patch < |outputs|
      invariant 0 <= patch <= |outputs| && patch <= |patches|
      invariant FirstMismatch(patches, outputs, patch) == FirstMismatch(patches, outputs, 0)
      invariant forall p :: 0 <= p < patch ==> Matches(patches[p], outputs[p])
      invariant |delta| == vertexCount
      invariant forall v :: 0 <= v < vertexCount ==>
                  delta[v] == LastWrite(AllWrites(patches, outputs, patch, lo, hi), v).GetOr(Zero)
    {
      assert patch < |patches|;
      var out := outputs[patch];
      var ids := patches[patch];
      if |out| / 3 != |ids| {
        assert FirstMismatch(patches, outputs, patch) == patch;
        return;
      }
      assert patch < FirstMismatch(patches, outputs, patch);
      ghost var before := AllWrites(patches, outputs, patch, lo, hi);
      ghost var pw := PatchWrites(ids, out, lo, hi);
      var tensorIndex := 0;
      var k := 0;
      assert before + pw[..0] == before;
      while k < |ids|
        invariant 0 <= k <= |ids|
        invariant tensorIndex == 3 * k
        invariant |delta| == vertexCount
        invariant forall v :: 0 <= v < vertexCount ==>
                    delta[v] == LastWrite(before + pw[..k], v).GetOr(Zero)
      {
        var index := ids[k];
        var value := Vec3(Denormalize(out[tensorIndex], lo, hi),
                          Denormalize(out[tensorIndex + 1], lo, hi),
                          Denormalize(out[tensorIndex + 2], lo, hi));
        assert pw[k] == Write(index, value);
        assert before + pw[..k + 1] == (before + pw[..k]) + [pw[k]];
        ExtendByOne(before + pw[..k], pw[k]);
        delta := delta[index := value];
        tensorIndex := tensorIndex + 3;
        k := k + 1;
      }
      assert pw[..k] == pw;
      patch := patch + 1;
    }
    assert FirstMismatch(patches, outputs, patch) == patch;
  }

  /** The stores of the first `m = n + 1` patches are those of the first `n`
      followed by those of patch `n`. */
  lemma AllWritesStep(patches: seq<seq<int>>, outputs: seq<seq<real>>, m: nat, n: nat, lo: real, hi: real)
    requires m == n + 1 && m <= |outputs| && m <= |patches|
    requires forall p :: 0 <= p < m ==> Matches(patches[p], outputs[p])
    ensures AllWrites(patches, outputs, m, lo, hi)
            == AllWrites(patches, outputs, n, lo, hi) + PatchWrites(patches[n], outputs[n], lo, hi)
  {
  }

  /** Appending one store changes only the last store to the vertex it
      reaches. */
  lemma ExtendByOne(ws: seq<Write>, w: Write)
    ensures forall v :: LastWrite(ws + [w], v) == if w.vertex == v then Some(w.value) else LastWrite(ws, v)
  {
    assert (ws + [w])[..|ws|] == ws;
  }

  /** Stores to the end of a write list take precedence over earlier ones. */
  lemma {:induction false} LastWriteAppend(a: seq<Write>, b: seq<Write>, v: int)
    ensures LastWrite(a + b, v) == if LastWrite(b, v).Some? then LastWrite(b, v) else LastWrite(a, v)
    decreases |b|
  {
    if |b| == 0 {
      assert a + b == a;
    } else {
      var b' := b[..|b| - 1];
      assert (a + b)[..|a + b| - 1] == a + b';
      LastWriteAppend(a, b', v);
    }
  }

  /** A vertex has no last store exactly when nothing in the list stores to it. */
  lemma {:induction false} LastWriteNone(ws: seq<Write>, v: int)
    ensures LastWrite(ws, v).None? <==> forall i :: 0 <= i < |ws| ==> ws[i].vertex != v
    decreases |ws|
  {
    if |ws| > 0 {
      var init := ws[..|ws| - 1];
      LastWriteNone(init, v);
      assert forall i :: 0 <= i < |init| ==> init[i] == ws[i];
    }
  }

  /** The store at `i` is the last one to `v` when nothing after it stores to `v`. */
  lemma {:induction false} LastWriteAt(ws: seq<Write>, i: nat, v: int)
    requires i < |ws| && ws[i].vertex == v
    requires forall j :: i < j < |ws| ==> ws[j].vertex != v
    ensures LastWrite(ws, v) == Some(ws[i].value)
    decreases |ws|
  {
    if i < |ws| - 1 {
      var init := ws[..|ws| - 1];
      assert forall j :: 0 <= j < |init| ==> init[j] == ws[j];
      LastWriteAt(init, i, v);
    }
  }

  /** Vertex `v` is listed by the patch `ids`. */
  predicate Lists(ids: seq<int>, v: int)
  {
    exists k :: 0 <= k < |ids| && ids[k] == v
  }

  /** Vertex `v` is listed by one of the first `m` patches. */
  predicate Covered(patches: seq<seq<int>>, m: nat, v: int)
    requires m <= |patches|
  {
    exists p, k :: 0 <= p < m && 0 <= k < |patches[p]| && patches[p][k] == v
  }

  /** Some store of the first `m` patches reaches `v` exactly when one of
      them lists `v`. With `m` the first mismatching output, this says the
      delta of every vertex outside those patches stays zero, and that later
      patches write nothing. */
  lemma {:induction false} WrittenIffCovered(
    patches: seq<seq<int>>, outputs: seq<seq<real>>, m: nat, lo: real, hi: real, v: int)
    requires m <= |outputs| && m <= |patches|
    requires forall p :: 0 <= p < m ==> Matches(patches[p], outputs[p])
    ensures LastWrite(AllWrites(patches, outputs, m, lo, hi), v).Some? <==> Covered(patches, m, v)
    decreases m
  {
    if m > 0 {
      var n := m - 1;
      var before := AllWrites(patches, outputs, n, lo, hi);
      var pw := PatchWrites(patches[n], outputs[n], lo, hi);
      AllWritesStep(patches, outputs, m, n, lo, hi);
      WrittenIffCovered(patches, outputs, n, lo, hi, v);
      LastWriteAppend(before, pw, v);
      PatchLastWriteNone(patches[n], outputs[n], lo, hi, v);
      CoveredStep(patches, m, n, v);
    }
  }

  /** A matching patch stores to `v` exactly when it lists `v`. */
  lemma PatchLastWriteNone(ids: seq<int>, out: seq<real>, lo: real, hi: real, v: int)
    requires Matches(ids, out)
    ensures LastWrite(PatchWrites(ids, out, lo, hi), v).None? <==> forall k :: 0 <= k < |ids| ==> ids[k] != v
  {
    var pw := PatchWrites(ids, out, lo, hi);
    LastWriteNone(pw, v);
    assert forall k :: 0 <= k < |ids| ==> pw[k].vertex == ids[k];
  }

  /** The first `m = n + 1` patches list `v` exactly when the first `n` do or
      patch `n` does. */
  lemma CoveredStep(patches: seq<seq<int>>, m: nat, n: nat, v: int)
    requires m == n + 1 && m <= |patches|
    ensures Covered(patches, m, v) <==> Covered(patches, n, v) || Lists(patches[n], v)
  {
    if Covered(patches, m, v) && !Covered(patches, n, v) {
      var p, k :| 0 <= p < m && 0 <= k < |patches[p]| && patches[p][k] == v;
      assert p == n;
    }
  }

  /** Last write wins: the delta of `v` is the de-normalised triple of its
      last occurrence in the first `m` patches, in patch order and then in
      order within a patch. When ids are distinct this is simply the triple
      of its one occurrence. */
  lemma {:induction false} LastOccurrenceWins(
    patches: seq<seq<int>>, outputs: seq<seq<real>>, m: nat, lo: real, hi: real, p: nat, k: nat)
    requires m <= |outputs| && m <= |patches|
    requires forall q :: 0 <= q < m ==> Matches(patches[q], outputs[q])
    requires p < m && k < |patches[p]|
    requires forall k' :: k < k' < |patches[p]| ==> patches[p][k'] != patches[p][k]
    requires forall q, k' :: p < q < m && 0 <= k' < |patches[q]| ==> patches[q][k'] != patches[p][k]
    ensures 3 * k + 2 < |outputs[p]|
    ensures LastWrite(AllWrites(patches, outputs, m, lo, hi), patches[p][k])
            == Some(Triple(outputs[p], k, lo, hi))
    decreases m
  {
    if p == m - 1 {
      FinalPatchDecides(patches, outputs, m, p, lo, hi, k);
    } else {
      var n := m - 1;
      LaterPatchKeeps(patches, outputs, m, n, lo, hi, patches[p][k]);
      LastOccurrenceWins(patches, outputs, n, lo, hi, p, k);
    }
  }

  /** A vertex patch `n` lists takes its value from that patch in the stores
      of the first `m = n + 1` patches. */
  lemma FinalPatchDecides(patches: seq<seq<int>>, outputs: seq<seq<real>>, m: nat, n: nat, lo: real, hi: real, k: nat)
    requires m == n + 1 && m <= |outputs| && m <= |patches|
    requires forall q :: 0 <= q < m ==> Matches(patches[q], outputs[q])
    requires k < |patches[n]|
    requires forall k' :: k < k' < |patches[n]| ==> patches[n][k'] != patches[n][k]
    ensures 3 * k + 2 < |outputs[n]|
    ensures LastWrite(AllWrites(patches, outputs, m, lo, hi), patches[n][k]) == Some(Triple(outputs[n], k, lo, hi))
  {
    AllWritesStep(patches, outputs, m, n, lo, hi);
    PatchLastWriteAt(patches[n], outputs[n], lo, hi, k);
    LastWriteAppend(AllWrites(patches, outputs, n, lo, hi), PatchWrites(patches[n], outputs[n], lo, hi), patches[n][k]);
  }

  /** A vertex patch `n` does not list keeps, in the stores of the first
      `m = n + 1` patches, the value the earlier patches gave it. */
  lemma LaterPatchKeeps(patches: seq<seq<int>>, outputs: seq<seq<real>>, m: nat, n: nat, lo: real, hi: real, v: int)
    requires m == n + 1 && m <= |outputs| && m <= |patches|
    requires forall q :: 0 <= q < m ==> Matches(patches[q], outputs[q])
    requires forall k' :: 0 <= k' < |patches[n]| ==> patches[n][k'] != v
    ensures LastWrite(AllWrites(patches, outputs, m, lo, hi), v) == LastWrite(AllWrites(patches, outputs, n, lo, hi), v)
  {
    AllWritesStep(patches, outputs, m, n, lo, hi);
    PatchLastWriteNone(patches[n], outputs[n], lo, hi, v);
    LastWriteAppend(AllWrites(patches, outputs, n, lo, hi), PatchWrites(patches[n], outputs[n], lo, hi), v);
  }

  /** Within one patch, the last occurrence of an id decides its value. */
  lemma PatchLastWriteAt(ids: seq<int>, out: seq<real>, lo: real, hi: real, k: nat)
    requires Matches(ids, out) && k < |ids|
    requires forall k' :: k < k' < |ids| ==> ids[k'] != ids[k]
    ensures 3 * k + 2 < |out|
    ensures LastWrite(PatchWrites(ids, out, lo, hi), ids[k]) == Some(Triple(out, k, lo, hi))
  {
    var pw := PatchWrites(ids, out, lo, hi);
    assert forall j :: k < j < |pw| ==> pw[j].vertex == ids[j];
    LastWriteAt(pw, k, ids[k]);
  }

  /** The scan stays inside the patch list exactly when there are no more
      outputs than patches, or some output within the patch list mismatches
      its patch (the source then returns before it runs out of patches). */
  lemma ScanInBoundsIff(patches: seq<seq<int>>, outputs: seq<seq<real>>)
    ensures ScanInBounds(patches, outputs) <==>
              || |outputs| <= |patches|
              || exists p :: 0 <= p < |patches| && p < |outputs| && !Matches(patches[p], outputs[p])
  {
    var m := FirstMismatch(patches, outputs, 0);
    if ScanInBounds(patches, outputs) && |outputs| > |patches| {
      assert m < |patches| && m < |outputs|;
      assert !Matches(patches[m], outputs[m]);
    }
  }

  /** Worked example of where the scan stops. With patches [[0], [7]] and
      outputs [[0,0,0], [0]], patch 1 mismatches (1 / 3 = 0 entries for one
      id), so its out-of-range id 7 is never read and one delta entry
      suffices. With one patch and two matching outputs, the scan runs past
      the patch list. */
  lemma ScanStopExamples()
    ensures var patches := [[0], [7]];
            var outputs := [[0.0, 0.0, 0.0], [0.0]];
            && FirstMismatch(patches, outputs, 0) == 1
            && ScanInBounds(patches, outputs)
            && ScatteredIdsInRange(patches, outputs, 1)
    ensures !ScanInBounds([[0]], [[0.0, 0.0, 0.0], [0.0, 0.0, 0.0]])
  {
    var patches := [[0], [7]];
    var outputs := [[0.0, 0.0, 0.0], [0.0]];
    assert Matches(patches[0], outputs[0]);
    assert !Matches(patches[1], outputs[1]);
    assert FirstMismatch(patches, outputs, 1) == 1;
    var p2 := [[0]];
    var o2 := [[0.0, 0.0, 0.0], [0.0, 0.0, 0.0]];
    assert Matches(p2[0], o2[0]);
    assert FirstMismatch(p2, o2, 1) == 1;
  }

  /** Worked example: one patch over vertices 0, 2 and 4 whose output is
      (-1,-1,-1, 1,1,1, 0,0,0), de-normalised into [-0.5, 0.5]. */
  lemma ScatterExample()
    ensures var patches := [[0, 2, 4]];
            var outputs := [[-1.0, -1.0, -1.0, 1.0, 1.0, 1.0, 0.0, 0.0, 0.0]];
            var m := FirstMismatch(patches, outputs, 0);
            && m == 1
            && LastWrite(AllWrites(patches, outputs, m, -0.5, 0.5), 0) == Some(Vec3(-0.5, -0.5, -0.5))
            && LastWrite(AllWrites(patches, outputs, m, -0.5, 0.5), 2) == Some(Vec3(0.5, 0.5, 0.5))
            && LastWrite(AllWrites(patches, outputs, m, -0.5, 0.5), 4) == Some(Vec3(0.0, 0.0, 0.0))
            && LastWrite(AllWrites(patches, outputs, m, -0.5, 0.5), 1) == None
            && LastWrite(AllWrites(patches, outputs, m, -0.5, 0.5), 3) == None
  {
    var patches := [[0, 2, 4]];
    var outputs := [[-1.0, -1.0, -1.0, 1.0, 1.0, 1.0, 0.0, 0.0, 0.0]];
    assert Matches(patches[0], outputs[0]);
    var ws := AllWrites(patches, outputs, 1, -0.5, 0.5);
    assert ws == [] + PatchWrites(patches[0], outputs[0], -0.5, 0.5);
    assert ws[0] == Write(0, Vec3(-0.5, -0.5, -0.5));
    assert ws[1] == Write(2, Vec3(0.5, 0.5, 0.5));
    assert ws[2] == Write(4, Vec3(0.0, 0.0, 0.0));
    LastWriteAt(ws, 0, 0);
    LastWriteAt(ws, 1, 2);
    LastWriteAt(ws, 2, 4);
    LastWriteNone(ws, 1);
    LastWriteNone(ws, 3);
  }
}

=== FILE: vectors.dfy ===
/** Three-component vectors over `real` and the scalar helpers the deformer
    uses from its maths library (`saturate`, `lerp`). Single-precision
    rounding is not modelled: every value is an exact real.
 */
module Vectors {

  datatype Vec3 = Vec3(x: real, y: real, z: real)

  const Zero: Vec3 := Vec3(0.0, 0.0, 0.0)

  function Add(a: Vec3, b: Vec3): Vec3
  {
    Vec3(a.x + b.x, a.y + b.y, a.z + b.z)
  }

  function Scale(a: Vec3, s: real): Vec3
  {
    Vec3(a.x * s, a.y * s, a.z * s)
  }

  /** Clamp to the unit interval. */
  function Saturate(x: real): (r: real)
    ensures 0.0 <= r <= 1.0
    ensures 0.0 <= x <= 1.0 ==> r == x
    ensures x <= 0.0 ==> r == 0.0
    ensures 1.0 <= x ==> r == 1.0
  {
    if x < 0.0 then 0.0 else if x > 1.0 then 1.0 else x
  }

  /** Linear interpolation from `a` (at `t == 0`) to `b` (at `t == 1`). */
  function Lerp(a: real, b: real, t: real): real
  {
    a + t * (b - a)
  }

  /** Scaling a non-negative amount by a unit factor cannot enlarge it. */
  lemma UnitMulLe(f: real, a: real)
    requires 0.0 <= a && 0.0 <= f <= 1.0
    ensures 0.0 <= f * a <= a
    ensures 0.0 <= a * f <= a
  {
    assert 0.0 <= f * a;
    assert 0.0 <= (1.0 - f) * a;
    assert 0.0 <= a * f;
    assert 0.0 <= a * (1.0 - f);
  }

  /** Multiplying by a non-negative factor keeps order. */
  lemma MulMonotone(a: real, b: real, c: real)
    requires a <= b && 0.0 <= c
    ensures a * c <= b * c
  {
    assert 0.0 <= (b - a) * c;
    assert b * c - a * c == (b - a) * c;
  }

  /** The same for a non-positive amount. */
  lemma UnitMulNeg(f: real, c: real)
    requires c <= 0.0 && 0.0 <= f <= 1.0
    ensures c <= f * c <= 0.0
  {
    assert f * c <= 0.0;
    assert (1.0 - f) * c <= 0.0;
  }

  /** For `t` in the unit interval the interpolant lies between its ends. */
  lemma LerpBetween(a: real, b: real, t: real)
    requires 0.0 <= t <= 1.0
    ensures a <= b ==> a <= Lerp(a, b, t) <= b
    ensures b <= a ==> b <= Lerp(a, b, t) <= a
  {
    var d := b - a;
    if a <= b {
      UnitMulLe(t, d);
    } else {
      UnitMulNeg(t, d);
    }
    var p := t * d;
    assert Lerp(a, b, t) == a + p;
  }

  /** Scaling by zero gives the zero vector; adding it changes nothing. */
  lemma AddScaleZero(a: Vec3, d: Vec3)
    ensures Add(a, Scale(d, 0.0)) == a
  {
  }
}
